=== FILE: README.md ===
# Axon core: branch locks, agent Jobs and the Jira source

This project is a Dafny model of three parts of the Axon controller. Axon
runs AI coding agents as Kubernetes Jobs.

- **Branch locker** (`BranchLocker`): the table recording which Task owns
  each workspace-and-branch lock key. Acquiring, releasing and asking for
  the holder are each one atomic step, so the model treats the table as a
  value and each operation as a function from the old table to the new one.
- **Job builder** (`JobBuilder`, `McpConfig`, `JobProperties`): turns a Task
  and its optional resolved workspace into the Kubernetes Job that runs the
  Claude Code agent. The modelled parts are:
  - the agent's command line;
  - its credential environment;
  - the workspace clone init container;
  - the MCP configuration document and the init container that writes it;
  - the fixed Job settings.

  `CommandLines` models how the agent CLI and `git clone` read their
  argument lists. The Job's promises are stated by reading the Job back
  through those parsers.

  Three details of the builder:
  - The agent gets the prompt with `-p` and the model with `--model`.
  - The clone container passes the git credential helper inline with
    `git -c`. The helper is not persisted. It answers every host git asks
    about with the user `x-access-token` and the workspace token.
  - `Build` supports only the `claude-code` agent type. Every other type is
    an "unsupported agent type" error.
- **Jira source** (`JiraJql`, `JiraAdf`, `JiraComments`, `JiraFetch`,
  `JiraDiscover`): discovers a project's issues as work items. The modelled
  parts are:
  - composing the JQL query, keeping a trailing `ORDER BY` clause outside
    the parentheses;
  - the search request and its authorization;
  - the three error paths of fetching one page;
  - the pagination loop, at most ten pages;
  - extracting text from Atlassian Document Format comment bodies;
  - capping the comment text at 64 KiB;
  - reading an issue's number out of its key.

Support modules:

- `Results` holds `Option` and `Result`.
- `Text` holds Go's `strings` functions with Go's meaning: `Join`,
  `TrimSpace` over `unicode.IsSpace`, `TrimRight`, `LastIndex`, and `len`
  as a UTF-8 byte count.
- `Decimal` holds `strconv.Atoi` and `strconv.Itoa` over the 64-bit range.

The HTTP exchange is a parameter. A `Server` is a function from a search
request to either a transport error or a response. The response carries
the status, the body bytes and what Go's JSON decoder makes of the body.
Pages are therefore fetched through a function from offset to page result.

## Model

| member | source | states |
|---|---|---|
| BranchLocker.NewBranchLocker | internal/controller/branch_locker.go:16-18 | A new locker holds no key. |
| BranchLocker.Holder | internal/controller/branch_locker.go:44-48 | The holder is the task that owns the key. It is "" for a key nobody holds, because Go's map lookup yields the zero value. |
| BranchLocker.TryAcquire | internal/controller/branch_locker.go:23-31 | Acquiring succeeds exactly when the key is free or already held by the same task. On success the task owns the key and "" is reported. On failure the other owner is reported and the table is unchanged. Re-acquiring by the owner changes nothing. No other key is touched. |
| BranchLocker.Release | internal/controller/branch_locker.go:35-41 | Releasing frees the key only when the releasing task owns it. Otherwise the table is unchanged. No other key is touched. |
| BranchLocker.AcquireReleaseLifecycle | internal/controller/branch_locker.go:23-48 | A full lifecycle: acquire, then re-acquire by the owner, then a rejected second task that is told who the owner is, then release, then the second task succeeds. |
| BranchLocker.HeldUntilReleased | internal/controller/branch_locker.go:23-41 | An owner keeps the key through any sequence of operations that does not contain its own release. |
| BranchLocker.MutualExclusion | internal/controller/branch_locker.go:23-41 | After one task acquires a key, every other task is refused until the owner releases it, and the refusal names the owner. |
| BranchLocker.KeysIndependent | internal/controller/branch_locker.go:23-41 | A sequence of operations on other keys leaves a key's entry as it was. |
| JobBuilder.NewJobBuilder | internal/controller/job_builder.go:56-58 | The default builder uses the default agent image and sets no pull policy. |
| JobBuilder.Build | internal/controller/job_builder.go:61-68 | Building fails exactly for agent types other than claude-code, and the error names the type. On success the Job is the claude-code Job that `BuildClaudeCodeJob` describes: it is named after the Task, is never retried, and has one container. |
| JobBuilder.BuildClaudeCodeJob | internal/controller/job_builder.go:236-267 | The Job and its pod carry the same labels, including the Task's name. The Job has backoff limit 0 and restart policy Never. It has one container named claude-code that runs the builder's image. |
| JobProperties.AgentArgs | internal/controller/job_builder.go:72-81 | The agent's arguments start with the fixed flags and the prompt. When MCP servers are declared, they end with the MCP flag. The agent CLI reads them back as exactly three things. The first is the Task's prompt. The second is the model, exactly when one is set. The third is the MCP configuration path, exactly when MCP servers are declared. |
| JobProperties.ClaudeArgsRead | internal/controller/job_builder.go:72-81 | The agent CLI reads the argument list back as the prompt, the optional model and the optional MCP path. |
| JobProperties.CredentialWiring | internal/controller/job_builder.go:85-130 | An api-key credential gives the agent exactly one ANTHROPIC_API_KEY variable and an oauth credential exactly one CLAUDE_CODE_OAUTH_TOKEN variable. Each is read from the key of the same name in the Task's Secret. No agent variable carries an inline value. The agent has no other variables: one for a known credential kind, plus two when the workspace has a Secret. |
| JobProperties.CredentialEnvNames | internal/controller/job_builder.go:85-110 | The credential variables hold exactly one variable for the Task's credential kind and none for the other kind. They hold no GitHub token, and every value comes from the Task's Secret. |
| JobProperties.WorkspaceTokenEnvNames | internal/controller/job_builder.go:112-130 | The workspace token appears under both GITHUB_TOKEN and GH_TOKEN when the workspace has a Secret, and not at all otherwise. Both names read the Secret's GITHUB_TOKEN key. |
| JobProperties.WorkspaceTokenWiring | internal/controller/job_builder.go:112-130 | The agent and the clone init container both get exactly one GITHUB_TOKEN and one GH_TOKEN from the workspace Secret when there is one, and neither when there is not. |
| JobProperties.McpWiring | internal/controller/job_builder.go:147-186 | There is one init container, one volume and one agent mount per feature in use, MCP or workspace. Declared MCP servers add three things, each first in its list. The first is the `mcp-config` volume. The second is a read-only mount at the MCP directory. The third is an init container that runs as the agent user and carries the configuration document. That busybox container mounts the same volume at the same path, read-write. It writes the document to /home/claude/.mcp/mcp.json, the path the agent's last argument names. Without servers there is no MCP volume. |
| JobProperties.CloneArgsRead | internal/controller/job_builder.go:206-210 | git reads the clone arguments as a shallow clone of all branches of the workspace repository into /workspace/repo. It checks out the ref when one is set. "--" keeps the repository from being read as an option. |
| JobProperties.GitCloneRead | internal/controller/job_builder.go:212-228 | The clone container is named git-clone, runs the git image as the agent user, and asks git for the workspace's clone. With a Secret it runs through the credential-helper script, and git sees the helper setting in front of the same clone. |
| JobProperties.WorkspacePresent | internal/controller/job_builder.go:188-234 | A workspace sets the pod's filesystem group to the agent user. It appends the workspace volume and the git-clone init container, and it makes /workspace/repo the agent's working directory. The clone container and the agent both mount the workspace volume at /workspace, so the agent sees the clone. The agent's workspace mount comes last. |
| JobProperties.WorkspaceAbsent | internal/controller/job_builder.go:188-234 | Without a workspace there is no filesystem group, no working directory, no clone container and no workspace volume. |
| McpConfig.ServerJson | internal/controller/job_builder.go:294-315 | A server entry always keeps the transport type and the environment. A stdio entry keeps only the command line. An http or sse entry keeps only the URL and the headers. Any other transport keeps nothing else. |
| McpConfig.BuildMCPConfig | internal/controller/job_builder.go:290-318 | The document has exactly one entry per declared server name, and each entry is that server's entry. |
| McpConfig.McpConfigRoundTrip | internal/controller/job_builder.go:272-318 | Reading the document back yields the declared servers, each limited to the fields its transport uses. A server that sets only those fields comes back exactly. |
| Decimal.AtoiFormatNat | internal/source/jira.go:202-210 | Reading a formatted natural number back, with or without a minus sign, yields the number whenever it is within the 64-bit range. |
| Decimal.AtoiFormatInt | internal/source/jira.go:159-164 | Reading a formatted 64-bit integer back yields that integer. |
| JiraJql.OrderByIndex | internal/source/jira.go:145-146 | The index found is the last position where "ORDER BY" begins, ignoring ASCII case, or -1 when there is none. |
| JiraJql.OrderByIndexIsLastIndex | internal/source/jira.go:145-146 | The keyword search gives the same index as Go's `strings.LastIndex` of "ORDER BY" in the upper-cased query. |
| JiraJql.SplitJQLOrderBy | internal/source/jira.go:144-151 | Without ORDER BY the filter is the trimmed query and the clause is empty. Otherwise the query is cut at the last ORDER BY, and each side is trimmed. |
| JiraJql.OrderByClause | internal/source/jira.go:150 | The clause is the piece of the query from the keyword to the last non-space character. It starts with the keyword and only white space follows it in the query. |
| JiraJql.SplitFindsOrderByIff | internal/source/jira.go:144-151 | The split yields an ORDER BY clause exactly when the query contains the keyword somewhere. |
| JiraJql.BuildJQL | internal/source/jira.go:130-139 | The query always starts with the project restriction. With no user JQL it is exactly the project restriction. |
| JiraJql.BuildJQLWithOrderBy | internal/source/jira.go:130-135 | A query with an ORDER BY clause becomes "project = P AND (filter) clause", with the trimmed filter part and the trimmed clause. |
| JiraJql.BuildJQLWithoutOrderBy | internal/source/jira.go:130-137 | A non-empty query without ORDER BY becomes "project = P AND (query)", with the query trimmed. |
| JiraJql.BuildJQLKeepsOrderBy | internal/source/jira.go:130-151 | Splitting the composed query gives back the parenthesised project-and-filter part and the user's ORDER BY clause unchanged. The clause stays outside the parentheses. |
| JiraJql.BuildJQLEmptyGroup | internal/source/jira.go:130-139 | A non-empty JQL whose filter part is empty yields a query that starts with the empty group "project = P AND ()". |
| JiraJql.OrderByOnlyGivesEmptyGroup | internal/source/jira.go:130-139 | "ORDER BY key" for project PROJ composes to "project = PROJ AND () ORDER BY key". |
| JiraJql.BuildJQLCorrected | internal/source/jira.go:130-139 | The corrected builder also returns just the project restriction when there is no user JQL. |
| JiraJql.BuildJQLCorrectedAgrees | internal/source/jira.go:130-139 | The corrected builder agrees with the original whenever the filter part is non-empty. |
| JiraJql.BuildJQLCorrectedNoEmptyGroup | internal/source/jira.go:130-139 | With an empty filter part, the corrected query never contains the empty group. |
| JiraJql.BuildJQLCorrectedEndsWithOrderBy | internal/source/jira.go:130-151 | The corrected query still ends with the user's ORDER BY clause, after any parentheses. |
| JiraAdf.ExtractADFTextIsRuns | internal/source/jira.go:250-271 | The extracted text of a document node is its non-empty text runs, in document order, joined by newlines. A node with a text string is one run, and the runs of its content are not read. Non-object children and empty texts contribute nothing. |
| JiraAdf.ChildTextsAreRuns | internal/source/jira.go:262-270 | Joining the children's texts gives the same text as joining their flattened runs. |
| JiraAdf.ExtractADFTextEmptyIff | internal/source/jira.go:250-271 | The extracted text is empty exactly when the node has no non-empty text run. |
| JiraAdf.CommentBodyToString | internal/source/jira.go:237-247 | A plain-string body is returned as it is. A document body becomes its text runs joined by newlines. Any other JSON value becomes "". |
| JiraComments.Kept | internal/source/jira.go:213-233 | The kept bodies are the longest leading run whose UTF-8 size stays within the budget. A body is left out only when it would push the running size over the budget. |
| JiraComments.KeptUnique | internal/source/jira.go:213-233 | Any leading run that fits and cannot take the next body is the kept run. |
| JiraComments.ExtractComments | internal/source/jira.go:213-233 | The comments text is "" with no comment field. Otherwise it is the non-empty bodies, in order, up to the first that does not fit in 64 KiB, joined by "\n---\n". |
| JiraComments.KeptWithinCap | internal/source/jira.go:213-233 | The kept bodies never exceed 64 KiB in total. Once one body is dropped, every later body is dropped too. |
| JiraComments.AllKeptWhenSmall | internal/source/jira.go:213-233 | When all non-empty bodies fit in 64 KiB, every one of them is kept. |
| JiraComments.NonEmptyBodiesAppend | internal/source/jira.go:221-225 | Filtering out empty bodies commutes with concatenating comment lists. |
| JiraFetch.AuthorizationRoundTrip | internal/source/jira.go:171-179 | The server reads back exactly the configured user and token. Basic auth is used exactly when both are set, a bearer token when only the token is set, and no authorization without a token. |
| JiraFetch.SearchRequestFor | internal/source/jira.go:159-164 | The search carries exactly the parameters jql, maxResults, startAt and fields. It carries the authorization chosen from the configured user and token, and it accepts application/json. |
| JiraFetch.SearchRequestReadBack | internal/source/jira.go:154-164 | The server reads back the requested offset, a page size of 100, the JQL composed by `buildJQL` as written and the requested field list. |
| JiraFetch.RequestSendsEmptyGroup | internal/source/jira.go:130-160 | A source for project PROJ whose JQL is "ORDER BY key" sends "project = PROJ AND () ORDER BY key" to the server. |
| JiraFetch.SearchUrlIgnoresTrailingSlash | internal/source/jira.go:154 | Any number of trailing slashes on the base URL addresses the same search endpoint. |
| JiraFetch.FetchIssuesPage | internal/source/jira.go:181-198 | A page succeeds exactly when the exchange succeeds, the status is 200 and the body decodes. The page is then the decoded body. A transport error is reported after "fetching issues: " and a decoding error after "decoding response: ". |
| JiraFetch.StatusErrorMessage | internal/source/jira.go:188-191 | A status other than 200 is an error that names the status and then quotes the first min(body length, 1024) bytes of the body, one character per byte. |
| JiraFetch.FetchAllIssues | internal/source/jira.go:110-128 | The loop returns what the recursive pagination returns, in every case. |
| JiraFetch.ConsistentServer | internal/source/jira.go:110-128 | Against a server that serves a list in pages of k issues, the result is the first min(total, 10k) issues, in order, with no gaps and no repeats. |
| JiraFetch.FetchFromServesPrefix | internal/source/jira.go:110-128 | From any offset, such a server yields the next min(remaining, pages × k) issues. |
| JiraFetch.FetchFromBounded | internal/source/jira.go:110-128 | Whatever the server returns, pages of at most m issues give at most pages × m issues. |
| JiraFetch.FirstPageErrorIsFinal | internal/source/jira.go:115-118 | An error on the first page is the result, whatever the server would answer later. |
| JiraDiscover.ExtractIssueNumber | internal/source/jira.go:202-210 | The issue number is a 64-bit integer, and it is 0 for a key without a '-'. |
| JiraDiscover.IssueNumberOfSuffix | internal/source/jira.go:202-210 | A key made of a project key without '-', then '-', then a suffix that `strconv.Atoi` accepts gives the suffix's value. The suffix may be signed or zero-padded. |
| JiraDiscover.IssueNumberPadded | internal/source/jira.go:202-210 | A zero-padded suffix such as "007" gives 7. |
| JiraDiscover.IssueNumberSigned | internal/source/jira.go:202-210 | A second '-' is a minus sign, so a key ending in "--3" gives -3. |
| JiraDiscover.IssueNumberOfKey | internal/source/jira.go:202-210 | A key made of a project key without '-', then '-', then a number gives back that number. |
| JiraDiscover.IssueNumberNotNumeric | internal/source/jira.go:202-210 | A key whose text after the first '-' is not a number gives 0. |
| JiraDiscover.IssueUrlTrailingSlash | internal/source/jira.go:100 | A trailing slash on the base URL does not change an issue's browse URL. Without one the base URL is used as it is. |
| JiraDiscover.Discover | internal/source/jira.go:79-108 | A fetch error is returned as it is, with no items. Otherwise there is one work item per fetched issue, in order. Each item carries the key, the issue number, the summary, the browse URL, the labels, the capped comments text and the issue type, or "Issue" when the type is missing. |

## Left out

- The mutex of the branch locker. Each operation is modelled as one atomic step, so concurrent interleavings are histories of those steps.
- The Kubernetes object types. Only the fields the builder sets are modelled. The image pull policy is a plain string.
- WorkspaceSpec and WorkItem: only the fields the core reads or sets are modelled.
- JSON text. The MCP configuration is modelled as the structure that is serialised. `json.Marshal` cannot fail on it, so the "building MCP config" and "marshaling MCP config" errors are never produced. The search response is decoded by the `Server` parameter.
- The HTTP client, request contexts, `url.Parse`, `http.NewRequestWithContext` and query-string encoding. The request is modelled as its URL, its parameter map, its authorization and its Accept header. The "parsing base URL" and "creating request" errors therefore cannot arise in the model.
- The quoted error body is rendered one character per byte. Go's `string(body)` would reinterpret the bytes as UTF-8.
- Jira's JSON numbers are unbounded integers here. Go's `int` is 64-bit, and the model does not wrap `startAt` on overflow.
- JiraJql.OrderByIndex: `strings.ToUpper` is modelled for ASCII letters only. Go also upper-cases other letters, some of which change their UTF-8 length and would shift the index.
- The index of the ORDER BY keyword is counted in characters. Go counts in bytes, and the two agree on ASCII queries.
- The issue's status field is carried but not used, as in the source.
- The rest of the repository is not modelled: the controllers, the spawner, the CLI and the other sources.

## Findings

| source | as written | input that shows it | evidently intended | confidence | as-written member | corrected member |
|---|---|---|---|---|---|---|
| internal/source/jira.go:130-139 | A non-empty JQL is always wrapped in "AND (...)", even when its filter part is empty after splitting off ORDER BY. | project PROJ with JQL "ORDER BY key" gives "project = PROJ AND () ORDER BY key", an empty group that JQL rejects. | When the filter part is empty, only the ORDER BY clause is appended: "project = PROJ ORDER BY key". | medium, not executed | JiraJql.BuildJQLEmptyGroup, JiraJql.OrderByOnlyGivesEmptyGroup, JiraFetch.RequestSendsEmptyGroup | JiraJql.BuildJQLCorrected, JiraJql.BuildJQLCorrectedNoEmptyGroup |

The search request and everything built on it use `buildJQL` as written, so the model sends the empty group as the code does. The corrected builder is stated next to it and is not wired into the request.

=== FILE: branch_locker.dfy ===
/** The branch lock table: which task owns each workspace+branch lock key.
    Every operation is one atomic step (the mutex around the Go map only
    serves that purpose), so the table is a value and each operation a
    function from the old table to the new one. */
module BranchLocker {

  /** Lock key -> name of the owning task. */
  type Owners = map<string, string>

  /** What `TryAcquire` reports, together with the table it leaves behind. */
  datatype Acquired = Acquired(ok: bool, holder: string, owners: Owners)

  /** `key`'s entry is the same in both tables (present with the same owner,
      or absent from both). */
  predicate SameEntry(t: Owners, u: Owners, key: string)
  {
    (key in t <==> key in u) && (key in t ==> t[key] == u[key])
  }

  /** Every key other than `key` has the same entry in both tables. */
  ghost predicate OthersUnchanged(t: Owners, u: Owners, key: string)
  {
    forall k :: k != key ==> SameEntry(t, u, k)
  }

  /** `NewBranchLocker`: nothing is held. */
  function NewBranchLocker(): (t: Owners)
    ensures forall k :: k !in t
  {
    map[]
  }

  /** `Holder`: the owning task, or "" when the key is unheld (Go's
      zero value for a missing map entry). Reading changes no state. */
  function Holder(t: Owners, key: string): (r: string)
    ensures key !in t ==> r == ""
    ensures key in t ==> r == t[key]
  {
    if key in t then t[key] else ""
  }

  /** `TryAcquire`: claim `key` for `task` unless a different task holds it. */
  function TryAcquire(t: Owners, key: string, task: string): (r: Acquired)
    // success exactly when the key is free or already ours
    ensures r.ok <==> key !in t || t[key] == task
    // on success the caller owns the key and gets "" back
    ensures r.ok ==> r.holder == "" && key in r.owners && r.owners[key] == task
    // on failure the current owner is reported and nothing changes
    ensures !r.ok ==> r.holder == t[key] && r.holder != task && r.owners == t
    // re-acquiring by the owner is a no-op
    ensures key in t && t[key] == task ==> r.owners == t
    ensures OthersUnchanged(t, r.owners, key)
  {
    if key in t && t[key] != task then Acquired(false, t[key], t)
    else Acquired(true, "", t[key := task])
  }

  /** `Release`: drop the lock only when `task` owns it; never fails. */
  function Release(t: Owners, key: string, task: string): (r: Owners)
    ensures key in t && t[key] == task ==> key !in r
    ensures !(key in t && t[key] == task) ==> r == t
    ensures OthersUnchanged(t, r, key)
  {
    if Holder(t, key) == task then t - {key} else t
  }

  /** One step of a sequential history of lock operations. */
  datatype Op = AcquireOp(key: string, task: string) | ReleaseOp(key: string, task: string)

  function Step(t: Owners, op: Op): Owners
  {
    match op
    case AcquireOp(k, n) => TryAcquire(t, k, n).owners
    case ReleaseOp(k, n) => Release(t, k, n)
  }

  /** The table after running `ops` in order from `t`. */
  function Run(t: Owners, ops: seq<Op>): Owners
    decreases |ops|
  {
    if |ops| == 0 then t else Run(Step(t, ops[0]), ops[1..])
  }

  /** The lifecycle of TestBranchLocker_TryAcquireAndRelease in
      branch_locker_test.go: acquire, re-acquire by the owner, rejection of
      a second task with the owner reported, release, and then success for
      the second task. */
  lemma AcquireReleaseLifecycle(t: Owners, key: string, a: string, b: string)
    requires key !in t && a != b
    ensures TryAcquire(t, key, a) == Acquired(true, "", t[key := a])
    ensures Holder(TryAcquire(t, key, a).owners, key) == a
    ensures var t1 := TryAcquire(t, key, a).owners;
            TryAcquire(t1, key, a) == Acquired(true, "", t1)
    ensures var t1 := TryAcquire(t, key, a).owners;
            TryAcquire(t1, key, b) == Acquired(false, a, t1)
    ensures var t2 := Release(TryAcquire(t, key, a).owners, key, a);
            Holder(t2, key) == "" && TryAcquire(t2, key, b).ok && Holder(TryAcquire(t2, key, b).owners, key) == b
  {
  }

  /** Once `a` holds `key`, it keeps holding it through any history that
      does not contain `Release(key, a)`. */
  lemma {:induction false} HeldUntilReleased(t: Owners, ops: seq<Op>, key: string, a: string)
    requires key in t && t[key] == a
    requires forall i :: 0 <= i < |ops| ==> ops[i] != ReleaseOp(key, a)
    ensures key in Run(t, ops) && Run(t, ops)[key] == a
    decreases |ops|
  {
    if |ops| > 0 {
      var t1 := Step(t, ops[0]);
      assert key in t1 && t1[key] == a;
      assert forall i :: 0 <= i < |ops[1..]| ==> ops[1..][i] == ops[i + 1];
      HeldUntilReleased(t1, ops[1..], key, a);
    }
  }

  /** Mutual exclusion: after `a` acquires `key`, no other task can acquire
      it until `a` releases it, and the rejection names `a`. */
  lemma MutualExclusion(t: Owners, ops: seq<Op>, key: string, a: string, b: string)
    requires TryAcquire(t, key, a).ok
    requires forall i :: 0 <= i < |ops| ==> ops[i] != ReleaseOp(key, a)
    requires b != a
    ensures var u := Run(TryAcquire(t, key, a).owners, ops);
            !TryAcquire(u, key, b).ok && TryAcquire(u, key, b).holder == a
  {
    HeldUntilReleased(TryAcquire(t, key, a).owners, ops, key, a);
  }

  /** Different keys are independent: a history that never names `key`
      leaves `key`'s entry as it was. */
  lemma {:induction false} KeysIndependent(t: Owners, ops: seq<Op>, key: string)
    requires forall i :: 0 <= i < |ops| ==> ops[i].key != key
    ensures SameEntry(t, Run(t, ops), key)
    decreases |ops|
  {
    if |ops| > 0 {
      var t1 := Step(t, ops[0]);
      assert SameEntry(t, t1, key);
      assert forall i :: 0 <= i < |ops[1..]| ==> ops[1..][i] == ops[i + 1];
      KeysIndependent(t1, ops[1..], key);
    }
  }
}

=== FILE: command_lines.dfy ===
/** How the programs started by the Job read the argument lists the builder
    writes: the agent CLI's flags and `git clone`'s options. These readers are
    independent of the builder and serve as its partners: what the builder
    writes, they read back as the intended request. */
module CommandLines {
  import opened Results

  /** The flags the agent CLI is always started with, up to the prompt. */
  const ClaudeFixedFlags: seq<string> :=
    ["--dangerously-skip-permissions", "--output-format", "stream-json", "--verbose", "-p"]

  /** What the agent CLI is asked to do. */
  datatype ClaudeInvocation = ClaudeInvocation(prompt: string, model: Option<string>, mcpConfig: Option<string>)

  /** Read an agent command line: the fixed flags, the prompt, then any of
      `--model <m>` and `--mcp-config <path>`, each at most once. */
  function ParseClaudeArgs(args: seq<string>): Option<ClaudeInvocation>
  {
    if |args| < 6 || args[..5] != ClaudeFixedFlags then None
    else ParseClaudeFlags(args[6..], ClaudeInvocation(args[5], None, None))
  }

  function ParseClaudeFlags(rest: seq<string>, acc: ClaudeInvocation): Option<ClaudeInvocation>
    decreases |rest|
  {
    if |rest| == 0 then Some(acc)
    else if |rest| >= 2 && rest[0] == "--model" && acc.model.None? then
      ParseClaudeFlags(rest[2..], acc.(model := Some(rest[1])))
    else if |rest| >= 2 && rest[0] == "--mcp-config" && acc.mcpConfig.None? then
      ParseClaudeFlags(rest[2..], acc.(mcpConfig := Some(rest[1])))
    else None
  }

  /** What `git clone` is asked to do. */
  datatype CloneRequest = CloneRequest(
    branch: Option<string>,
    noSingleBranch: bool,
    depth: Option<string>,
    repo: string,
    directory: string)

  /** Read a `git` argument vector: leading `-c name=value` settings, then
      `clone`, its options, `--`, and exactly the repository and directory.
      After `--` nothing is taken as an option, so a repository string that
      starts with `-` is still read as the repository. */
  function ParseGitClone(argv: seq<string>): Option<(seq<string>, CloneRequest)>
    decreases |argv|
  {
    if |argv| >= 2 && argv[0] == "-c" then
      match ParseGitClone(argv[2..])
      case None => None
      case Some(r) => Some(([argv[1]] + r.0, r.1))
    else if |argv| >= 1 && argv[0] == "clone" then
      match ParseCloneOptions(argv[1..], CloneRequest(None, false, None, "", ""))
      case None => None
      case Some(req) => Some(([], req))
    else None
  }

  function ParseCloneOptions(rest: seq<string>, acc: CloneRequest): Option<CloneRequest>
    decreases |rest|
  {
    if |rest| == 0 then None
    else if rest[0] == "--" then
      if |rest| == 3 then Some(acc.(repo := rest[1], directory := rest[2])) else None
    else if rest[0] == "--no-single-branch" then
      ParseCloneOptions(rest[1..], acc.(noSingleBranch := true))
    else if |rest| >= 2 && rest[0] == "--branch" then
      ParseCloneOptions(rest[2..], acc.(branch := Some(rest[1])))
    else if |rest| >= 2 && rest[0] == "--depth" then
      ParseCloneOptions(rest[2..], acc.(depth := Some(rest[1])))
    else None
  }
}

=== FILE: decimal.dfy ===
/** Decimal integers as Go's `strconv.Atoi` reads them on a 64-bit platform
    (an `int` is 64 bits wide), and the canonical decimal rendering that
    reads back to the same number. */
module Decimal {
  import opened Results

  const MinInt64: int := -0x8000_0000_0000_0000
  const MaxInt64: int := 0x7FFF_FFFF_FFFF_FFFF

  predicate IsDigit(c: char)
  {
    '0' <= c <= '9'
  }

  predicate AllDigits(s: string)
  {
    forall i :: 0 <= i < |s| ==> IsDigit(s[i])
  }

  /** The value of a string of decimal digits, most significant first. */
  function DigitsValue(s: string): nat
    requires AllDigits(s)
  {
    if |s| == 0 then 0
    else DigitsValue(s[..|s| - 1]) * 10 + (s[|s| - 1] as int - '0' as int)
  }

  /** `strconv.Atoi`: an optional `+` or `-`, then one or more decimal digits
      (no underscores, any number of leading zeros), whose value must fit in
      a signed 64-bit integer; anything else is an error (None). */
  function Atoi(s: string): (r: Option<int>)
    ensures r.Some? ==> MinInt64 <= r.value <= MaxInt64
    ensures r.Some? ==> |s| > 0
    ensures r.Some? && s[0] != '-' ==> r.value >= 0
  {
    var signed := |s| > 0 && (s[0] == '-' || s[0] == '+');
    var digits := if signed then s[1..] else s;
    if |digits| == 0 || !AllDigits(digits) then None
    else
      var magnitude: int := DigitsValue(digits);
      var v := if s[0] == '-' then -magnitude else magnitude;
      if MinInt64 <= v <= MaxInt64 then Some(v) else None
  }

  function DigitChar(d: nat): (c: char)
    requires d < 10
    ensures IsDigit(c) && c as int - '0' as int == d
  {
    ('0' as int + d) as char
  }

  /** The canonical decimal rendering of a natural number (Go's `strconv.Itoa`
      for a non-negative argument). */
  function FormatNat(n: nat): (s: string)
    ensures |s| > 0 && AllDigits(s)
    ensures |s| > 1 ==> s[0] != '0'
  {
    if n < 10 then [DigitChar(n)] else FormatNat(n / 10) + [DigitChar(n % 10)]
  }

  /** Reading the rendering of `n` gives back `n`. */
  lemma {:induction false} FormatNatValue(n: nat)
    ensures DigitsValue(FormatNat(n)) == n
  {
    var s := FormatNat(n);
    if n >= 10 {
      assert s[..|s| - 1] == FormatNat(n / 10);
      FormatNatValue(n / 10);
    }
  }

  /** `strconv.Atoi` inverts the rendering for every value a 64-bit `int`
      can hold, with or without a leading minus sign. */
  lemma AtoiFormatNat(n: nat)
    ensures n <= MaxInt64 ==> Atoi(FormatNat(n)) == Some(n)
    ensures n <= -MinInt64 ==> Atoi("-" + FormatNat(n)) == Some(-(n as int))
  {
    FormatNatValue(n);
    var f := FormatNat(n);
    assert IsDigit(f[0]);
    var s := "-" + f;
    assert s[0] == '-' && s[1..] == f;
  }

  /** `strconv.Itoa`: the decimal rendering of an integer, with a minus
      sign when it is negative. */
  function FormatInt(i: int): (s: string)
    ensures |s| > 0
    ensures i >= 0 ==> AllDigits(s)
    ensures i < 0 ==> s[0] == '-' && AllDigits(s[1..])
  {
    if i < 0 then "-" + FormatNat(-i) else FormatNat(i)
  }

  /** `strconv.Atoi` reads back what `strconv.Itoa` writes, over the whole
      64-bit range. */
  lemma AtoiFormatInt(i: int)
    requires MinInt64 <= i <= MaxInt64
    ensures Atoi(FormatInt(i)) == Some(i)
  {
    if i < 0 {
      AtoiFormatNat(-i);
    } else {
      AtoiFormatNat(i);
    }
  }
}

=== FILE: jira_adf.dfy ===
/** Comment bodies as the Jira REST API returns them: a plain string (Jira
    Server and Data Center) or an Atlassian Document Format tree (Jira
    Cloud), decoded into generic JSON values. */
module JiraAdf {
  import opened Text

  /** A decoded JSON value, as Go's `encoding/json` yields it into an
      `interface{}`: objects become maps and arrays become slices. Numbers
      are kept as integers; nothing here inspects them. */
  datatype Json =
    | JNull
    | JBool(b: bool)
    | JNumber(n: int)
    | JString(s: string)
    | JArray(items: seq<Json>)
    | JObject(fields: map<string, Json>)

  const LineBreak: string := "\n"

  /** `extractADFText`: a node with a string "text" field is that text;
      otherwise the non-empty texts of the object children of its "content"
      array, one per line; any other node is "". */
  function ExtractADFText(node: Json): (r: string)
    requires node.JObject?
    decreases node, 0
  {
    if "text" in node.fields && node.fields["text"].JString? then
      node.fields["text"].s
    else if "content" in node.fields && node.fields["content"].JArray? then
      Join(ChildTexts(node.fields["content"], 0), LineBreak)
    else
      ""
  }

  /** The non-empty texts of the object items of `arr` from index `i` on. */
  function ChildTexts(arr: Json, i: nat): (parts: seq<string>)
    requires arr.JArray? && i <= |arr.items|
    ensures forall k :: 0 <= k < |parts| ==> parts[k] != ""
    decreases arr, |arr.items| - i
  {
    if i == |arr.items| then []
    else
      var rest := ChildTexts(arr, i + 1);
      var item := arr.items[i];
      if item.JObject? && ExtractADFText(item) != "" then [ExtractADFText(item)] + rest
      else rest
  }

  /** The text runs of an ADF tree in document order: the non-empty strings
      of its text nodes, where a text node hides whatever content it has. */
  function TextRuns(node: Json): (runs: seq<string>)
    requires node.JObject?
    ensures forall k :: 0 <= k < |runs| ==> runs[k] != ""
    decreases node, 0
  {
    if "text" in node.fields && node.fields["text"].JString? then
      if node.fields["text"].s != "" then [node.fields["text"].s] else []
    else if "content" in node.fields && node.fields["content"].JArray? then
      RunsFrom(node.fields["content"], 0)
    else
      []
  }

  /** The text runs of the object items of `arr` from index `i` on. */
  function RunsFrom(arr: Json, i: nat): (runs: seq<string>)
    requires arr.JArray? && i <= |arr.items|
    ensures forall k :: 0 <= k < |runs| ==> runs[k] != ""
    decreases arr, |arr.items| - i
  {
    if i == |arr.items| then []
    else if arr.items[i].JObject? then TextRuns(arr.items[i]) + RunsFrom(arr, i + 1)
    else RunsFrom(arr, i + 1)
  }

  /** The extracted text of an ADF tree is its text runs, one per line:
      nesting adds no blank lines and drops no non-empty text. */
  lemma {:induction false} ExtractADFTextIsRuns(node: Json)
    requires node.JObject?
    ensures ExtractADFText(node) == Join(TextRuns(node), LineBreak)
    decreases node, 0
  {
    if "text" in node.fields && node.fields["text"].JString? {
    } else if "content" in node.fields && node.fields["content"].JArray? {
      ChildTextsAreRuns(node.fields["content"], 0);
    }
  }

  lemma {:induction false} ChildTextsAreRuns(arr: Json, i: nat)
    requires arr.JArray? && i <= |arr.items|
    ensures Join(ChildTexts(arr, i), LineBreak) == Join(RunsFrom(arr, i), LineBreak)
    decreases arr, |arr.items| - i
  {
    if i < |arr.items| {
      var item := arr.items[i];
      ChildTextsAreRuns(arr, i + 1);
      var ct := ChildTexts(arr, i + 1);
      var rf := RunsFrom(arr, i + 1);
      JoinEmptyIff(ct, LineBreak);
      JoinEmptyIff(rf, LineBreak);
      if item.JObject? {
        ExtractADFTextIsRuns(item);
        var runs := TextRuns(item);
        JoinEmptyIff(runs, LineBreak);
        if ExtractADFText(item) != "" {
          if |rf| == 0 {
            assert runs + rf == runs;
          } else {
            JoinAppend([ExtractADFText(item)], ct, LineBreak);
            JoinAppend(runs, rf, LineBreak);
          }
        } else {
          assert runs + rf == rf;
        }
      }
    }
  }

  /** The extracted text is empty exactly when the tree has no text run. */
  lemma ExtractADFTextEmptyIff(node: Json)
    requires node.JObject?
    ensures ExtractADFText(node) == "" <==> |TextRuns(node)| == 0
  {
    ExtractADFTextIsRuns(node);
    JoinEmptyIff(TextRuns(node), LineBreak);
  }

  /** `commentBodyToString`: a string body is itself, an object body is its
      ADF text, and any other body is "". */
  function CommentBodyToString(body: Json): (r: string)
    ensures body.JString? ==> r == body.s
    ensures body.JObject? ==> r == Join(TextRuns(body), LineBreak)
    ensures !body.JString? && !body.JObject? ==> r == ""
  {
    match body
    case JString(s) => s
    case JObject(_) =>
      ExtractADFTextIsRuns(body);
      ExtractADFText(body)
    case _ => ""
  }
}

=== FILE: jira_comments.dfy ===
/** Concatenation of an issue's comments, capped in size. */
module JiraComments {
  import opened Results
  import opened Text
  import opened JiraAdf

  /** The most bytes of comment bodies kept per issue: 64 KiB. */
  const MaxJiraCommentBytes: int := 64 * 1024

  const CommentSeparator: string := "\n---\n"

  /** The non-empty bodies of `comments`, in order. */
  function NonEmptyBodies(comments: seq<Json>): (bodies: seq<string>)
    ensures forall k :: 0 <= k < |bodies| ==> bodies[k] != ""
    ensures |bodies| <= |comments|
  {
    if |comments| == 0 then []
    else
      var body := CommentBodyToString(comments[|comments| - 1]);
      NonEmptyBodies(comments[..|comments| - 1]) + (if body != "" then [body] else [])
  }

  lemma {:induction false} NonEmptyBodiesAppend(a: seq<Json>, b: seq<Json>)
    ensures NonEmptyBodies(a + b) == NonEmptyBodies(a) + NonEmptyBodies(b)
    decreases |b|
  {
    if |b| == 0 {
      assert a + b == a;
    } else {
      var last := b[|b| - 1];
      assert (a + b)[..|a + b| - 1] == a + b[..|b| - 1];
      NonEmptyBodiesAppend(a, b[..|b| - 1]);
    }
  }

  /** Total UTF-8 size of `parts`, the measure Go's `len` gives. */
  function TotalBytes(parts: seq<string>): nat
  {
    if |parts| == 0 then 0 else Utf8Len(parts[0]) + TotalBytes(parts[1..])
  }

  lemma {:induction false} TotalBytesAppend(a: seq<string>, b: seq<string>)
    ensures TotalBytes(a + b) == TotalBytes(a) + TotalBytes(b)
  {
    if |a| == 0 {
      assert a + b == b;
    } else {
      assert (a + b)[1..] == a[1..] + b;
      TotalBytesAppend(a[1..], b);
    }
  }

  /** The bodies kept within `budget` bytes: taken in order while the next
      one still fits, stopping at the first that does not. */
  function Kept(bodies: seq<string>, budget: int): (kept: seq<string>)
    ensures |kept| <= |bodies| && kept == bodies[..|kept|]
    ensures TotalBytes(kept) <= budget || |kept| == 0
    ensures |kept| < |bodies| ==> TotalBytes(kept) + Utf8Len(bodies[|kept|]) > budget
  {
    if |bodies| == 0 || Utf8Len(bodies[0]) > budget then []
    else
      var rest := Kept(bodies[1..], budget - Utf8Len(bodies[0]));
      assert ([bodies[0]] + rest)[1..] == rest;
      [bodies[0]] + rest
  }

  /** `Kept` is the only prefix that fits within the budget and cannot be
      extended by the next body. */
  lemma {:induction false} KeptUnique(bodies: seq<string>, budget: int, k: nat)
    requires k <= |bodies| && TotalBytes(bodies[..k]) <= budget
    requires k < |bodies| ==> TotalBytes(bodies[..k]) + Utf8Len(bodies[k]) > budget
    ensures Kept(bodies, budget) == bodies[..k]
  {
    if k == 0 {
      assert bodies[..0] == [];
    } else {
      assert bodies[..k][1..] == bodies[1..][..k - 1];
      KeptUnique(bodies[1..], budget - Utf8Len(bodies[0]), k - 1);
      assert bodies[..k] == [bodies[0]] + bodies[1..][..k - 1];
    }
  }

  /** What `extractComments` returns, stated as a whole: the kept bodies
      joined by the separator, or "" when the issue has no comment field. */
  function CommentsText(comments: Option<seq<Json>>): string
  {
    match comments
    case None => ""
    case Some(cs) => Join(Kept(NonEmptyBodies(cs), MaxJiraCommentBytes), CommentSeparator)
  }

  lemma NonEmptyBodiesStep(cs: seq<Json>, i: nat)
    requires i < |cs|
    ensures var body := CommentBodyToString(cs[i]);
      NonEmptyBodies(cs[..i + 1]) == NonEmptyBodies(cs[..i]) + (if body != "" then [body] else [])
  {
    assert cs[..i + 1][..i] == cs[..i];
  }

  /** Where the loop stops at a body that does not fit, what it has
      gathered is exactly the kept bodies. */
  lemma KeptAtOverflow(cs: seq<Json>, i: nat, parts: seq<string>)
    requires i < |cs| && parts == NonEmptyBodies(cs[..i])
    requires CommentBodyToString(cs[i]) != ""
    requires TotalBytes(parts) <= MaxJiraCommentBytes
    requires TotalBytes(parts) + Utf8Len(CommentBodyToString(cs[i])) > MaxJiraCommentBytes
    ensures Kept(NonEmptyBodies(cs), MaxJiraCommentBytes) == parts
  {
    var body := CommentBodyToString(cs[i]);
    var a := cs[..i + 1];
    var b := cs[i + 1..];
    assert cs == a + b;
    NonEmptyBodiesAppend(a, b);
    NonEmptyBodiesStep(cs, i);
    var bodies := NonEmptyBodies(cs);
    assert bodies == (parts + [body]) + NonEmptyBodies(b);
    PrefixThenNext(parts, body, NonEmptyBodies(b));
    KeptUnique(bodies, MaxJiraCommentBytes, |parts|);
  }

  lemma PrefixThenNext(parts: seq<string>, body: string, rest: seq<string>)
    ensures var all := (parts + [body]) + rest;
      |parts| < |all| && all[..|parts|] == parts && all[|parts|] == body
  {
  }

  /** `extractComments`: walks the comments in order, skips empty bodies,
      and stops at the first body that would take the running byte count
      over the cap. */
  method ExtractComments(comments: Option<seq<Json>>) returns (r: string)
    ensures r == CommentsText(comments)
  {
    if comments.None? {
      return "";
    }
    var cs := comments.value;
    var parts: seq<string> := [];
    var totalBytes := 0;
    var i := 0;
    while i < |cs|
      invariant 0 <= i <= |cs|
      invariant parts == NonEmptyBodies(cs[..i])
      invariant totalBytes == TotalBytes(parts) <= MaxJiraCommentBytes
    {
      var body := CommentBodyToString(cs[i]);
      NonEmptyBodiesStep(cs, i);
      if body == "" {
        i := i + 1;
        continue;
      }
      totalBytes := totalBytes + Utf8Len(body);
      if totalBytes > MaxJiraCommentBytes {
        KeptAtOverflow(cs, i, parts);
        return Join(parts, CommentSeparator);
      }
      TotalBytesAppend(parts, [body]);
      parts := parts + [body];
      i := i + 1;
    }
    assert cs[..i] == cs;
    assert parts[..|parts|] == parts;
    KeptUnique(parts, MaxJiraCommentBytes, |parts|);
    r := Join(parts, CommentSeparator);
  }

  /** The kept bodies never exceed the cap in total, and a body is dropped
      only when it, added to those before it, would exceed the cap: every
      later body is dropped with it. */
  lemma KeptWithinCap(comments: seq<Json>)
    ensures var bodies := NonEmptyBodies(comments);
      var kept := Kept(bodies, MaxJiraCommentBytes);
      && TotalBytes(kept) <= MaxJiraCommentBytes
      && kept == bodies[..|kept|]
      && (|kept| < |bodies| ==> TotalBytes(kept) + Utf8Len(bodies[|kept|]) > MaxJiraCommentBytes)
  {
  }

  /** When all non-empty bodies fit, every one of them is kept. */
  lemma {:induction false} AllKeptWhenSmall(comments: seq<Json>)
    requires TotalBytes(NonEmptyBodies(comments)) <= MaxJiraCommentBytes
    ensures Kept(NonEmptyBodies(comments), MaxJiraCommentBytes) == NonEmptyBodies(comments)
  {
    var bodies := NonEmptyBodies(comments);
    assert bodies[..|bodies|] == bodies;
    KeptUnique(bodies, MaxJiraCommentBytes, |bodies|);
  }
}

=== FILE: jira_discover.dfy ===
/** The Jira source's `Discover`: each fetched issue becomes a work item
    for the spawner. */
module JiraDiscover {
  import opened Results
  import opened Text
  import opened Decimal
  import opened JiraComments
  import opened JiraFetch

  /** A unit of work discovered from a source (the fields the Jira source
      fills in). */
  datatype WorkItem = WorkItem(
    id: string,
    number: int,
    title: string,
    url: string,
    labels: seq<string>,
    comments: string,
    kind: string)

  /** The index of the first `c` in `s`, or -1. */
  function FirstIndexOf(s: string, c: char): (r: int)
    ensures -1 <= r < |s|
    ensures r >= 0 ==> s[r] == c && c !in s[..r]
    ensures r == -1 ==> c !in s
  {
    if |s| == 0 then -1
    else if s[0] == c then 0
    else
      var r := FirstIndexOf(s[1..], c);
      if r < 0 then -1
      else
        assert s[..r + 1] == [s[0]] + s[1..][..r];
        r + 1
  }

  /** `extractIssueNumber`: the text after the first '-' read as a decimal
      `int`, or 0 when there is no '-' or that text is not a number. */
  function ExtractIssueNumber(key: string): (n: int)
    ensures MinInt64 <= n <= MaxInt64
    ensures '-' !in key ==> n == 0
  {
    var dash := FirstIndexOf(key, '-');
    if dash < 0 then 0
    else
      match Atoi(key[dash + 1..])
      case Some(v) => v
      case None => 0
  }

  /** The number of a key made of a project key without '-', a '-' and a
      suffix `strconv.Atoi` accepts (signed, zero-padded or not) is the
      suffix's value. */
  lemma IssueNumberOfSuffix(project: string, suffix: string)
    requires '-' !in project && Atoi(suffix).Some?
    ensures ExtractIssueNumber(project + "-" + suffix) == Atoi(suffix).value
  {
    var key := project + "-" + suffix;
    assert key[..|project|] == project;
    assert key[|project|] == '-';
    assert FirstIndexOf(key, '-') == |project|;
    assert key[|project| + 1..] == suffix;
  }

  /** A key made of a project key without '-', a '-' and a number gives back
      that number. */
  lemma IssueNumberOfKey(project: string, n: nat)
    requires '-' !in project && n <= MaxInt64
    ensures ExtractIssueNumber(project + "-" + FormatNat(n)) == n
  {
    AtoiFormatNat(n);
    IssueNumberOfSuffix(project, FormatNat(n));
  }

  /** Leading zeros are read past. */
  lemma IssueNumberPadded(project: string)
    requires '-' !in project
    ensures ExtractIssueNumber(project + "-007") == 7
  {
    AtoiPadded();
    IssueNumberOfSuffix(project, "007");
    assert project + "-" + "007" == project + "-007";
  }

  /** A second '-' is read as a minus sign. */
  lemma IssueNumberSigned(project: string)
    requires '-' !in project
    ensures ExtractIssueNumber(project + "--3") == -3
  {
    AtoiNegative();
    IssueNumberOfSuffix(project, "-3");
    assert project + "-" + "-3" == project + "--3";
  }

  lemma AtoiPadded()
    ensures Atoi("007") == Some(7)
  {
    assert "007"[..2] == "00" && "00"[..1] == "0" && "0"[..0] == "";
    assert AllDigits("007");
  }

  lemma AtoiNegative()
    ensures Atoi("-3") == Some(-3)
  {
    var s := "-3";
    assert s[1..] == "3" && "3"[..0] == "";
    assert AllDigits("3");
  }

  /** A key whose text after the first '-' is not a number gives 0. */
  lemma IssueNumberNotNumeric(project: string, suffix: string)
    requires '-' !in project && Atoi(suffix).None?
    ensures ExtractIssueNumber(project + "-" + suffix) == 0
  {
    var key := project + "-" + suffix;
    assert key[..|project|] == project;
    assert key[|project|] == '-';
    assert FirstIndexOf(key, '-') == |project|;
    assert key[|project| + 1..] == suffix;
  }

  /** The browse URL of an issue. */
  function IssueUrl(baseURL: string, key: string): string
  {
    TrimRightChar(baseURL, '/') + "/browse/" + key
  }

  /** Trailing slashes on the base URL do not change the browse URL, and a
      base URL without one is used as it is. */
  lemma IssueUrlTrailingSlash(baseURL: string, key: string)
    ensures IssueUrl(baseURL + "/", key) == IssueUrl(baseURL, key)
    ensures (|baseURL| == 0 || baseURL[|baseURL| - 1] != '/') ==>
      IssueUrl(baseURL, key) == baseURL + "/browse/" + key
  {
    assert (baseURL + "/")[..|baseURL + "/"| - 1] == baseURL;
  }

  /** The issue type's name, or "Issue" when the issue has none. */
  function IssueKind(fields: IssueFields): string
  {
    match fields.issueType
    case Some(name) => name
    case None => "Issue"
  }

  /** The work item for one issue. */
  function ToWorkItem(baseURL: string, issue: Issue): (item: WorkItem)
  {
    WorkItem(
      issue.key,
      ExtractIssueNumber(issue.key),
      issue.fields.summary,
      IssueUrl(baseURL, issue.key),
      issue.fields.labels,
      CommentsText(issue.fields.comment),
      IssueKind(issue.fields))
  }

  /** `Discover`: fetch every page, then turn each issue, in order, into a
      work item; a fetch error is returned as it is, with no items. */
  method Discover(src: JiraSource, server: Server) returns (r: Result<seq<WorkItem>>)
    ensures var fetched := FetchFrom(PageFetcher(src, server), 0, MaxJiraPages);
      && (r.Err? <==> fetched.Err?)
      && (r.Err? ==> r.msg == fetched.msg)
      && (r.Ok? ==>
            && |r.value| == |fetched.value|
            && forall i :: 0 <= i < |r.value| ==> r.value[i] == ToWorkItem(src.baseURL, fetched.value[i]))
  {
    var fetched := FetchAllIssues(PageFetcher(src, server));
    if fetched.Err? {
      return Err(fetched.msg);
    }
    var issues := fetched.value;
    var items: seq<WorkItem> := [];
    var i := 0;
    while i < |issues|
      invariant 0 <= i <= |issues|
      invariant |items| == i
      invariant forall j :: 0 <= j < i ==> items[j] == ToWorkItem(src.baseURL, issues[j])
    {
      var issue := issues[i];
      var number := ExtractIssueNumber(issue.key);
      var comments := ExtractComments(issue.fields.comment);
      var kind := "Issue";
      if issue.fields.issueType.Some? {
        kind := issue.fields.issueType.value;
      }
      items := items + [WorkItem(
        issue.key,
        number,
        issue.fields.summary,
        TrimRightChar(src.baseURL, '/') + "/browse/" + issue.key,
        issue.fields.labels,
        comments,
        kind)];
      i := i + 1;
    }
    return Ok(items);
  }
}

=== FILE: jira_fetch.dfy ===
/** Fetching a project's issues from the Jira search API: the request for
    one page, how a response becomes a page or an error, and the pagination
    loop over pages. The HTTP exchange itself is a parameter: `Server`
    stands for the network, the Jira server and Go's JSON decoder. */
module JiraFetch {
  import opened Results
  import opened Text
  import opened Decimal
  import opened JiraAdf
  import opened JiraJql

  /** Results asked for per page. */
  const MaxJiraResults: int := 100
  /** Pages fetched at most. */
  const MaxJiraPages: nat := 10
  /** The issue fields the search asks for. */
  const SearchFields: string := "summary,status,labels,comment,issuetype"
  const SearchPath: string := "/rest/api/2/search"
  /** Bytes of an error response's body quoted in the error message. */
  const ErrorBodyLimit: int := 1024
  const StatusOK: int := 200

  /** The configuration of a Jira source (the HTTP client is left out). */
  datatype JiraSource = JiraSource(baseURL: string, project: string, jql: string, user: string, token: string)

  datatype IssueFields = IssueFields(
    summary: string,
    status: Option<string>,
    labels: seq<string>,
    comment: Option<seq<Json>>,
    issueType: Option<string>)

  datatype Issue = Issue(key: string, fields: IssueFields)

  /** One page of search results. */
  datatype SearchResponse = SearchResponse(startAt: int, maxResults: int, total: int, issues: seq<Issue>)

  /** How a request authenticates. */
  datatype Authorization =
    | NoAuthorization
    | BasicAuth(user: string, password: string)
    | HeaderAuth(value: string)

  /** Jira Cloud takes Basic auth with the user's e-mail and an API token;
      Jira Server and Data Center take a personal access token as a Bearer
      header; without a token the request is anonymous. */
  function RequestAuthorization(user: string, token: string): Authorization
  {
    if token != "" then
      if user != "" then BasicAuth(user, token) else HeaderAuth("Bearer " + token)
    else NoAuthorization
  }

  const BearerPrefix: string := "Bearer "

  /** What a receiving server reads from a request's authorization: the
      user (empty for none or a bearer token) and the secret. */
  function ReadCredentials(a: Authorization): (string, string)
  {
    match a
    case NoAuthorization => ("", "")
    case BasicAuth(user, password) => (user, password)
    case HeaderAuth(value) =>
      if |value| >= |BearerPrefix| && value[..|BearerPrefix|] == BearerPrefix then ("", value[|BearerPrefix|..])
      else ("", "")
  }

  /** The server reads back exactly the configured user and token, whichever
      scheme carries them, and the scheme is Basic exactly when both are set. */
  lemma AuthorizationRoundTrip(user: string, token: string)
    ensures var a := RequestAuthorization(user, token);
      && (token != "" ==> ReadCredentials(a) == (user, token))
      && (token == "" ==> a == NoAuthorization)
      && (a.BasicAuth? <==> user != "" && token != "")
  {
    if token != "" && user == "" {
      assert (BearerPrefix + token)[..|BearerPrefix|] == BearerPrefix;
      assert (BearerPrefix + token)[|BearerPrefix|..] == token;
    }
  }

  /** A search request: URL, query parameters, authorization and the
      accepted media type. */
  datatype SearchRequest = SearchRequest(
    url: string,
    query: map<string, string>,
    auth: Authorization,
    accept: string)

  /** The request `fetchIssuesPage` sends for the page at `startAt`, with
      the query composed by `buildJQL` as written (see `JiraJql`). */
  function SearchRequestFor(src: JiraSource, startAt: int): (req: SearchRequest)
    ensures req.query.Keys == {"jql", "maxResults", "startAt", "fields"}
    ensures req.auth == RequestAuthorization(src.user, src.token)
    ensures req.accept == "application/json"
  {
    SearchRequest(
      TrimRightChar(src.baseURL, '/') + SearchPath,
      map["jql" := BuildJQL(src.project, src.jql),
          "maxResults" := FormatInt(MaxJiraResults),
          "startAt" := FormatInt(startAt),
          "fields" := SearchFields],
      RequestAuthorization(src.user, src.token),
      "application/json")
  }

  /** The server reads the requested page back from the query: the offset,
      the page size of 100, the composed JQL and the field list. */
  lemma SearchRequestReadBack(src: JiraSource, startAt: int)
    requires MinInt64 <= startAt <= MaxInt64
    ensures var req := SearchRequestFor(src, startAt);
      && Atoi(req.query["startAt"]) == Some(startAt)
      && Atoi(req.query["maxResults"]) == Some(MaxJiraResults)
      && req.query["jql"] == BuildJQL(src.project, src.jql)
      && req.query["fields"] == SearchFields
  {
    AtoiFormatInt(startAt);
    AtoiFormatInt(MaxJiraResults);
  }

  /** A source whose JQL is only an ORDER BY clause sends the empty group
      "AND ()" to the server, as `buildJQL` composes it. */
  lemma RequestSendsEmptyGroup(src: JiraSource, startAt: int)
    requires src.project == "PROJ" && src.jql == "ORDER BY key"
    ensures SearchRequestFor(src, startAt).query["jql"] == "project = PROJ AND () ORDER BY key"
  {
    JqlSent(src, startAt);
    OrderByOnlyGivesEmptyGroup();
  }

  /** The jql parameter is the query `buildJQL` composes. */
  lemma JqlSent(src: JiraSource, startAt: int)
    ensures SearchRequestFor(src, startAt).query["jql"] == BuildJQL(src.project, src.jql)
  {
  }

  /** The base URL with any number of trailing slashes addresses the same
      search endpoint. */
  lemma SearchUrlIgnoresTrailingSlash(src: JiraSource, startAt: int, n: nat)
    ensures SearchRequestFor(src.(baseURL := src.baseURL + Slashes(n)), startAt).url
         == SearchRequestFor(src, startAt).url
  {
    TrimRightSlashes(src.baseURL, n);
  }

  /** `n` slashes. */
  function Slashes(n: nat): (s: string)
    ensures |s| == n && forall i :: 0 <= i < n ==> s[i] == '/'
  {
    seq(n, i => '/')
  }

  lemma {:induction false} TrimRightSlashes(s: string, n: nat)
    ensures TrimRightChar(s + Slashes(n), '/') == TrimRightChar(s, '/')
  {
    if n > 0 {
      var x := s + Slashes(n);
      assert x[|x| - 1] == '/';
      assert x[..|x| - 1] == s + Slashes(n - 1);
      TrimRightSlashes(s, n - 1);
    } else {
      assert s + Slashes(0) == s;
    }
  }

  /** The body bytes of an HTTP response. */
  newtype byte = x: int | 0 <= x < 256

  /** An HTTP response: the status, the raw body and what the JSON decoder
      makes of the body (an error message when it cannot decode it). */
  datatype HttpResponse = HttpResponse(status: int, body: seq<byte>, decoded: Result<SearchResponse>)

  /** The network, the Jira server and the decoder, seen from one request:
      a transport error or a response. */
  type Server = SearchRequest -> Result<HttpResponse>

  /** One character per body byte. */
  function BytesText(bytes: seq<byte>): (s: string)
    ensures |s| == |bytes|
    ensures forall i :: 0 <= i < |bytes| ==> s[i] == bytes[i] as char
  {
    seq(|bytes|, i requires 0 <= i < |bytes| => bytes[i] as char)
  }

  function Min(a: int, b: int): int
  {
    if a <= b then a else b
  }

  /** `fetchIssuesPage`: send the request for `startAt`; a transport error,
      a status other than 200 (quoting at most 1024 bytes of the body) and
      an undecodable body are errors; otherwise the decoded page. */
  function FetchIssuesPage(src: JiraSource, server: Server, startAt: int): (r: Result<SearchResponse>)
    ensures r.Ok? <==>
      var resp := server(SearchRequestFor(src, startAt));
      resp.Ok? && resp.value.status == StatusOK && resp.value.decoded.Ok?
    ensures r.Ok? ==> r.value == server(SearchRequestFor(src, startAt)).value.decoded.value
    ensures var resp := server(SearchRequestFor(src, startAt));
      resp.Err? ==> r == Err("fetching issues: " + resp.msg)
    ensures var resp := server(SearchRequestFor(src, startAt));
      resp.Ok? && resp.value.status == StatusOK && resp.value.decoded.Err? ==>
        r == Err("decoding response: " + resp.value.decoded.msg)
  {
    match server(SearchRequestFor(src, startAt))
    case Err(e) => Err("fetching issues: " + e)
    case Ok(resp) =>
      if resp.status != StatusOK then
        Err("Jira API returned status " + FormatInt(resp.status) + ": "
            + BytesText(resp.body[..Min(|resp.body|, ErrorBodyLimit)]))
      else
        match resp.decoded
        case Err(e) => Err("decoding response: " + e)
        case Ok(page) => Ok(page)
  }

  /** The error for a failed status names the status and quotes the first
      min(|body|, 1024) bytes of the body, one character per byte. */
  lemma StatusErrorMessage(src: JiraSource, server: Server, startAt: int)
    requires server(SearchRequestFor(src, startAt)).Ok?
    requires server(SearchRequestFor(src, startAt)).value.status != StatusOK
    ensures var resp := server(SearchRequestFor(src, startAt)).value;
      var prefix := "Jira API returned status " + FormatInt(resp.status) + ": ";
      var r := FetchIssuesPage(src, server, startAt);
      && r.Err?
      && |prefix| <= |r.msg| <= |prefix| + ErrorBodyLimit
      && r.msg[..|prefix|] == prefix
      && |r.msg| - |prefix| == Min(|resp.body|, ErrorBodyLimit)
      && r.msg[|prefix|..] == BytesText(resp.body)[..|r.msg| - |prefix|]
  {
    var resp := server(SearchRequestFor(src, startAt)).value;
    var prefix := "Jira API returned status " + FormatInt(resp.status) + ": ";
    var n := Min(|resp.body|, ErrorBodyLimit);
    var quoted := BytesText(resp.body[..n]);
    assert (prefix + quoted)[..|prefix|] == prefix;
    assert (prefix + quoted)[|prefix|..] == quoted;
    assert quoted == BytesText(resp.body)[..n];
  }

  /** The page function the pagination loop calls. */
  function PageFetcher(src: JiraSource, server: Server): int -> Result<SearchResponse>
  {
    startAt => FetchIssuesPage(src, server, startAt)
  }

  /** The pagination, stated recursively: fetch the page at `startAt`; stop
      on an error, on the last page (the offset after it reaches the
      reported total) or when `pagesLeft` runs out; otherwise continue after
      the issues just received. */
  function FetchFrom(fetch: int -> Result<SearchResponse>, startAt: int, pagesLeft: nat): Result<seq<Issue>>
    decreases pagesLeft
  {
    if pagesLeft == 0 then Ok([])
    else
      match fetch(startAt)
      case Err(e) => Err(e)
      case Ok(page) =>
        if startAt + |page.issues| >= page.total then Ok(page.issues)
        else
          match FetchFrom(fetch, startAt + |page.issues|, pagesLeft - 1)
          case Err(e) => Err(e)
          case Ok(rest) => Ok(page.issues + rest)
  }

  /** `acc` in front of a successful result; an error stays an error. */
  function Prepend(acc: seq<Issue>, r: Result<seq<Issue>>): Result<seq<Issue>>
  {
    match r
    case Err(e) => Err(e)
    case Ok(v) => Ok(acc + v)
  }

  lemma PrependNothing(r: Result<seq<Issue>>)
    ensures Prepend([], r) == r
  {
    if r.Ok? {
      assert [] + r.value == r.value;
    }
  }

  /** One step of the pagination: a page that is not the last moves its
      issues in front of the rest. */
  lemma FetchStep(fetch: int -> Result<SearchResponse>, acc: seq<Issue>, s: int, n: nat)
    requires n > 0 && fetch(s).Ok?
    ensures var page := fetch(s).value;
      Prepend(acc, FetchFrom(fetch, s, n)) ==
        if s + |page.issues| >= page.total then Ok(acc + page.issues)
        else Prepend(acc + page.issues, FetchFrom(fetch, s + |page.issues|, n - 1))
  {
    var page := fetch(s).value;
    var rest := FetchFrom(fetch, s + |page.issues|, n - 1);
    if rest.Ok? {
      assert acc + (page.issues + rest.value) == (acc + page.issues) + rest.value;
    }
  }

  /** `fetchAllIssues`: at most ten pages, concatenated in order; any error
      discards what was gathered. */
  method FetchAllIssues(fetch: int -> Result<SearchResponse>) returns (r: Result<seq<Issue>>)
    ensures r == FetchFrom(fetch, 0, MaxJiraPages)
  {
    var allIssues: seq<Issue> := [];
    var startAt := 0;
    var page := 0;
    PrependNothing(FetchFrom(fetch, 0, MaxJiraPages));
    while page < MaxJiraPages
      invariant 0 <= page <= MaxJiraPages
      invariant Prepend(allIssues, FetchFrom(fetch, startAt, MaxJiraPages - page)) == FetchFrom(fetch, 0, MaxJiraPages)
      decreases MaxJiraPages - page
    {
      var result := fetch(startAt);
      if result.Err? {
        return Err(result.msg);
      }
      FetchStep(fetch, allIssues, startAt, MaxJiraPages - page);
      allIssues := allIssues + result.value.issues;
      if startAt + |result.value.issues| >= result.value.total {
        return Ok(allIssues);
      }
      startAt := startAt + |result.value.issues|;
      page := page + 1;
    }
    assert allIssues + [] == allIssues;
    return Ok(allIssues);
  }

  /** A server that serves the list `all` in pages of `k` issues, each page
      reporting the list's size as the total. */
  ghost predicate ServesInPages(fetch: int -> Result<SearchResponse>, all: seq<Issue>, k: nat)
  {
    forall s :: 0 <= s <= |all| ==>
      fetch(s) == Ok(SearchResponse(s, k, |all|, all[s..Min(s + k, |all|)]))
  }

  /** Against such a server, the pagination returns the first
      min(|all|, pagesLeft * k) issues, in order, without gaps or repeats. */
  lemma {:induction false} FetchFromServesPrefix(fetch: int -> Result<SearchResponse>, all: seq<Issue>, k: nat, s: nat, pagesLeft: nat)
    requires k >= 1 && s <= |all| && ServesInPages(fetch, all, k)
    ensures FetchFrom(fetch, s, pagesLeft) == Ok(all[s..Min(|all|, s + pagesLeft * k)])
    decreases pagesLeft
  {
    if pagesLeft > 0 {
      if s + k < |all| {
        FetchFromServesPrefix(fetch, all, k, s + k, pagesLeft - 1);
        ServesMiddlePage(fetch, all, k, s, pagesLeft);
      } else {
        ServesLastPage(fetch, all, k, s, pagesLeft);
      }
    } else {
      assert s + pagesLeft * k == s;
      assert Min(|all|, s) == s;
      assert FetchFrom(fetch, s, 0) == Ok([]);
      assert all[s..s] == [];
    }
  }

  /** A page that reaches the end of the list is the last one fetched. */
  lemma ServesLastPage(fetch: int -> Result<SearchResponse>, all: seq<Issue>, k: nat, s: nat, pagesLeft: nat)
    requires k >= 1 && s <= |all| && ServesInPages(fetch, all, k)
    requires pagesLeft > 0 && s + k >= |all|
    ensures FetchFrom(fetch, s, pagesLeft) == Ok(all[s..Min(|all|, s + pagesLeft * k)])
  {
    var page := all[s..|all|];
    assert fetch(s) == Ok(SearchResponse(s, k, |all|, page));
    PagesAhead(k, pagesLeft);
    assert Min(|all|, s + pagesLeft * k) == |all|;
  }

  /** A full page in the middle is followed by what the rest of the
      fetch returns. */
  lemma ServesMiddlePage(fetch: int -> Result<SearchResponse>, all: seq<Issue>, k: nat, s: nat, pagesLeft: nat)
    requires k >= 1 && s <= |all| && ServesInPages(fetch, all, k)
    requires pagesLeft > 0 && s + k < |all|
    requires FetchFrom(fetch, s + k, pagesLeft - 1) == Ok(all[s + k..Min(|all|, s + k + (pagesLeft - 1) * k)])
    ensures FetchFrom(fetch, s, pagesLeft) == Ok(all[s..Min(|all|, s + pagesLeft * k)])
  {
    var page := all[s..s + k];
    assert fetch(s) == Ok(SearchResponse(s, k, |all|, page));
    PagesAhead(k, pagesLeft);
    var end := Min(|all|, s + pagesLeft * k);
    assert FetchFrom(fetch, s, pagesLeft) == Ok(page + all[s + k..end]);
    SliceConcat(all, s, s + k, end);
  }

  /** `pagesLeft` pages of `k` reach one page further than `pagesLeft - 1`. */
  lemma PagesAhead(k: nat, pagesLeft: nat)
    requires pagesLeft > 0
    ensures k + (pagesLeft - 1) * k == pagesLeft * k
    ensures pagesLeft * k >= k
  {
  }

  lemma SliceConcat(a: seq<Issue>, i: nat, j: nat, l: nat)
    requires i <= j <= l <= |a|
    ensures a[i..l] == a[i..j] + a[j..l]
  {
  }

  /** The whole fetch, from offset 0 with ten pages: the first
      min(total, 10 * k) issues. With the requested page size of 100 that is
      at most 1000 issues. */
  lemma ConsistentServer(fetch: int -> Result<SearchResponse>, all: seq<Issue>, k: nat)
    requires k >= 1 && ServesInPages(fetch, all, k)
    ensures FetchFrom(fetch, 0, MaxJiraPages) == Ok(all[..Min(|all|, MaxJiraPages * k)])
  {
    FetchFromServesPrefix(fetch, all, k, 0, MaxJiraPages);
  }

  /** Whatever the server does, a page of at most `m` issues each keeps the
      result to at most `pagesLeft * m` issues. */
  lemma {:induction false} FetchFromBounded(fetch: int -> Result<SearchResponse>, m: nat, s: int, pagesLeft: nat)
    requires forall t :: fetch(t).Ok? ==> |fetch(t).value.issues| <= m
    ensures FetchFrom(fetch, s, pagesLeft).Ok? ==> |FetchFrom(fetch, s, pagesLeft).value| <= pagesLeft * m
    decreases pagesLeft
  {
    if pagesLeft > 0 && fetch(s).Ok? {
      var page := fetch(s).value;
      FetchFromBounded(fetch, m, s + |page.issues|, pagesLeft - 1);
      assert pagesLeft * m == m + (pagesLeft - 1) * m;
    }
  }

  /** An error on the first page is the result, whatever else the server
      would answer. */
  lemma FirstPageErrorIsFinal(fetch: int -> Result<SearchResponse>)
    requires fetch(0).Err?
    ensures FetchFrom(fetch, 0, MaxJiraPages) == Err(fetch(0).msg)
  {
  }
}

=== FILE: jira_jql.dfy ===
/** Composition of the JQL query the Jira source sends: the project
    restriction, the user's filter in parentheses, and the user's ORDER BY
    clause kept at the top level. */
module JiraJql {
  import opened Text

  const OrderByKeyword: string := "ORDER BY"

  /** The keyword ORDER BY, in any ASCII letter case, starts at index `i`;
      spelt out character by character. */
  predicate KeywordAt(s: string, i: int)
  {
    && 0 <= i && i + |OrderByKeyword| <= |s|
    && UpperAscii(s[i]) == 'O' && UpperAscii(s[i + 1]) == 'R'
    && UpperAscii(s[i + 2]) == 'D' && UpperAscii(s[i + 3]) == 'E'
    && UpperAscii(s[i + 4]) == 'R' && UpperAscii(s[i + 5]) == ' '
    && UpperAscii(s[i + 6]) == 'B' && UpperAscii(s[i + 7]) == 'Y'
  }

  /** The keyword occurs at `i` exactly when it occurs there in the
      upper-cased text, which is where `strings.LastIndex` looks for it. */
  lemma KeywordAtUpper(s: string, i: int)
    ensures KeywordAt(s, i) <==> OccursAt(ToUpperAscii(s), OrderByKeyword, i)
  {
    if 0 <= i && i + |OrderByKeyword| <= |s| {
      var u := ToUpperAscii(s)[i..i + |OrderByKeyword|];
      assert |u| == 8;
      assert forall k :: 0 <= k < |OrderByKeyword| ==> u[k] == UpperAscii(s[i + k]);
      var spelt := u[0] == 'O' && u[1] == 'R' && u[2] == 'D' && u[3] == 'E'
        && u[4] == 'R' && u[5] == ' ' && u[6] == 'B' && u[7] == 'Y';
      assert KeywordAt(s, i) <==> spelt;
      assert u == OrderByKeyword <==> spelt;
    }
  }

  /** The largest `i < n` where the keyword starts, or -1. */
  function LastKeywordBelow(s: string, n: int): (idx: int)
    ensures -1 <= idx < n || (idx == -1 && n <= 0)
    ensures idx == -1 || KeywordAt(s, idx)
    ensures forall i :: idx < i < n ==> !KeywordAt(s, i)
    decreases n
  {
    if n <= 0 then -1
    else if KeywordAt(s, n - 1) then n - 1
    else LastKeywordBelow(s, n - 1)
  }

  /** Where the last case-insensitive ORDER BY starts, or -1. */
  function OrderByIndex(jql: string): (idx: int)
    ensures idx == -1 || KeywordAt(jql, idx)
    ensures forall i :: idx < i ==> !KeywordAt(jql, i)
  {
    LastKeywordBelow(jql, |jql| - |OrderByKeyword| + 1)
  }

  /** The index is the one Go's `strings.LastIndex` finds in the upper-cased
      query: both are the last occurrence of the keyword, and there is only
      one last occurrence. */
  lemma OrderByIndexIsLastIndex(jql: string)
    ensures OrderByIndex(jql) == LastIndex(ToUpperAscii(jql), OrderByKeyword)
  {
    var idx := OrderByIndex(jql);
    var go := LastIndex(ToUpperAscii(jql), OrderByKeyword);
    KeywordAtUpper(jql, idx);
    KeywordAtUpper(jql, go);
  }

  /** Upper-casing maps only 'o' and 'O' to 'O' and only 'y' and 'Y' to
      'Y', so the keyword neither starts nor ends with white space. */
  lemma KeywordEndsNotSpace(w: string, i: int)
    requires KeywordAt(w, i)
    ensures !IsSpace(w[i]) && !IsSpace(w[i + |OrderByKeyword| - 1])
  {
  }

  /** Trimming a clause that starts with the keyword keeps the keyword. */
  lemma TrimClause(clause: string)
    requires KeywordAt(clause, 0)
    ensures |TrimSpace(clause)| >= |OrderByKeyword|
    ensures LeadingSpaces(clause) == 0
    ensures TrimSpace(clause) == clause[..|TrimSpace(clause)|]
    ensures KeywordAt(TrimSpace(clause), 0)
  {
    KeywordEndsNotSpace(clause, 0);
    assert LeadingSpaces(clause) == 0;
  }

  /** The ORDER BY clause starting at an occurrence of the keyword: the rest
      of the query with trailing white space removed. It starts with the
      keyword as the user wrote it, ends with a non-space, and only white
      space follows it in the query. */
  function OrderByClause(jql: string, idx: int): (c: string)
    requires KeywordAt(jql, idx)
    ensures |OrderByKeyword| <= |c| <= |jql| - idx && c == jql[idx..idx + |c|]
    ensures KeywordAt(c, 0)
    ensures !IsSpace(c[|c| - 1])
    ensures forall k :: idx + |c| <= k < |jql| ==> IsSpace(jql[k])
  {
    var clause := jql[idx..];
    TrimClause(clause);
    var c := TrimSpace(clause);
    assert clause[..|c|] == jql[idx..idx + |c|];
    assert forall k :: idx + |c| <= k < |jql| ==> jql[k] == clause[k - idx];
    c
  }

  /** `splitJQLOrderBy`: the filter conditions and the ORDER BY clause, each
      trimmed; without an ORDER BY the whole query is the filter, otherwise
      the query is split at the last ORDER BY. */
  function SplitJQLOrderBy(jql: string): (r: (string, string))
    ensures OrderByIndex(jql) == -1 ==> r == (TrimSpace(jql), "")
    ensures OrderByIndex(jql) >= 0 ==>
      r == (TrimSpace(jql[..OrderByIndex(jql)]), OrderByClause(jql, OrderByIndex(jql)))
  {
    var idx := OrderByIndex(jql);
    if idx < 0 then (TrimSpace(jql), "")
    else (TrimSpace(jql[..idx]), OrderByClause(jql, idx))
  }

  /** A split yields an ORDER BY clause exactly when the query contains the
      keyword somewhere. */
  lemma SplitFindsOrderByIff(jql: string)
    ensures SplitJQLOrderBy(jql).1 != "" <==> exists i :: KeywordAt(jql, i)
  {
    var idx := OrderByIndex(jql);
    if idx >= 0 {
      assert KeywordAt(jql, idx);
    } else {
      assert forall i :: !KeywordAt(jql, i);
    }
  }

  function ProjectClause(project: string): string
  {
    "project = " + project
  }

  /** The project restriction followed by `tail`. */
  function Restricted(project: string, tail: string): (r: string)
    ensures |r| >= |ProjectClause(project)| && r[..|ProjectClause(project)|] == ProjectClause(project)
  {
    var pc := ProjectClause(project);
    assert (pc + tail)[..|pc|] == pc;
    pc + tail
  }

  /** The project restriction and the filter, wrapped in parentheses, joined
      by AND; it starts with 'p' and ends with ')'. */
  function Grouped(project: string, filter: string): (r: string)
    ensures |r| > 0 && r[0] == 'p' && r[|r| - 1] == ')'
  {
    Restricted(project, " AND (" + filter + ")")
  }

  /** The filter group followed, when there is one, by the ORDER BY clause. */
  function Compose(project: string, filter: string, orderBy: string): (r: string)
    ensures |r| >= |ProjectClause(project)| && r[..|ProjectClause(project)|] == ProjectClause(project)
  {
    var g := Grouped(project, filter);
    assert g[..|ProjectClause(project)|] == ProjectClause(project);
    if orderBy != "" then
      assert (g + " " + orderBy)[..|ProjectClause(project)|] == g[..|ProjectClause(project)|];
      g + " " + orderBy
    else g
  }

  /** `buildJQL` as written: the project restriction alone for an empty
      query, otherwise the filter in parentheses after AND, followed by the
      ORDER BY clause when there is one. Every composed query starts with the
      project restriction. */
  function BuildJQL(project: string, jql: string): (r: string)
    ensures |r| >= |ProjectClause(project)| && r[..|ProjectClause(project)|] == ProjectClause(project)
    ensures jql == "" ==> r == ProjectClause(project)
  {
    if jql != "" then
      var split := SplitJQLOrderBy(jql);
      Compose(project, split.0, split.1)
    else
      assert ProjectClause(project)[..|ProjectClause(project)|] == ProjectClause(project);
      ProjectClause(project)
  }

  lemma TrimSpaceDropsOneSpace(s: string)
    requires |s| > 0 && !IsSpace(s[0]) && !IsSpace(s[|s| - 1])
    ensures TrimSpace(s + " ") == s
  {
    var t := s + " ";
    assert LeadingSpaces(t) == 0;
    assert t[|s| - 1] == s[|s| - 1];
  }

  /** An occurrence of the keyword in the second part of a concatenation is
      one in the whole, shifted by the first part's length. */
  lemma KeywordShift(a: string, b: string, i: int)
    requires 0 <= i
    ensures KeywordAt(a + b, |a| + i) <==> KeywordAt(b, i)
  {
  }

  /** An occurrence of the keyword in a slice is one in the whole. */
  lemma KeywordInSlice(s: string, lo: int, hi: int, k: int)
    requires 0 <= lo <= hi <= |s| && KeywordAt(s[lo..hi], k)
    ensures KeywordAt(s, lo + k)
  {
  }

  /** A non-empty text with no white space at either end. */
  predicate Trimmed(s: string)
  {
    |s| > 0 && !IsSpace(s[0]) && !IsSpace(s[|s| - 1])
  }

  /** An ORDER BY clause as the split yields it: the keyword at its start
      and nowhere else, and no trailing white space. */
  ghost predicate ClauseShape(c: string)
  {
    && KeywordAt(c, 0)
    && !IsSpace(c[|c| - 1])
    && forall i :: 0 < i ==> !KeywordAt(c, i)
  }

  /** A slice starting where the last occurrence of the keyword begins
      holds the keyword nowhere after its start. */
  lemma NoKeywordInTail(s: string, lo: int, c: string)
    requires 0 <= lo && lo + |c| <= |s| && c == s[lo..lo + |c|]
    requires forall j :: lo < j ==> !KeywordAt(s, j)
    ensures forall i :: 0 < i ==> !KeywordAt(c, i)
  {
    forall i | 0 < i
      ensures !KeywordAt(c, i)
    {
      if KeywordAt(c, i) {
        KeywordInSlice(s, lo, lo + |c|, i);
        assert false;
      }
    }
  }

  /** The ORDER BY clause of a query holds the keyword only at its start. */
  lemma ClauseKeywordOnlyAtStart(jql: string)
    requires OrderByIndex(jql) >= 0
    ensures ClauseShape(OrderByClause(jql, OrderByIndex(jql)))
  {
    var idx := OrderByIndex(jql);
    var clause := OrderByClause(jql, idx);
    NoKeywordInTail(jql, idx, clause);
  }

  /** Splitting a trimmed text, one space and an ORDER BY clause that holds
      the keyword only at its start gives back the text and the clause. */
  lemma SplitAfterSpace(pre: string, clause: string)
    requires Trimmed(pre)
    requires ClauseShape(clause)
    ensures SplitJQLOrderBy(pre + " " + clause) == (pre, clause)
  {
    var head := pre + " ";
    var built := head + clause;
    var n := |head|;
    KeywordShift(head, clause, 0);
    forall i | n < i
      ensures !KeywordAt(built, i)
    {
      KeywordShift(head, clause, i - n);
    }
    assert OrderByIndex(built) == n;
    assert built[n..] == clause;
    assert built[..n] == head;
    TrimSpaceDropsOneSpace(pre);
    KeywordEndsNotSpace(clause, 0);
    TrimSpaceNoop(clause);
  }

  /** The composed query keeps the user's ORDER BY at the top level: split
      again, it yields the parenthesised filter and exactly the user's ORDER
      BY clause. */
  lemma BuildJQLKeepsOrderBy(project: string, jql: string)
    requires SplitJQLOrderBy(jql).1 != ""
    ensures SplitJQLOrderBy(BuildJQL(project, jql))
         == (Grouped(project, SplitJQLOrderBy(jql).0), SplitJQLOrderBy(jql).1)
  {
    var split := SplitJQLOrderBy(jql);
    var g := Grouped(project, split.0);
    assert Trimmed(g);
    OrderByClauseOfSplit(jql);
    SplitAfterSpace(g, split.1);
    BuildJQLWithOrderBy(project, jql);
  }

  /** A split that finds ORDER BY yields a clause that starts with the
      keyword, holds it nowhere else and ends with a non-space. */
  lemma OrderByClauseOfSplit(jql: string)
    requires SplitJQLOrderBy(jql).1 != ""
    ensures ClauseShape(SplitJQLOrderBy(jql).1)
  {
    var idx := OrderByIndex(jql);
    assert idx >= 0;
    assert SplitJQLOrderBy(jql).1 == OrderByClause(jql, idx);
    ClauseKeywordOnlyAtStart(jql);
  }

  /** With an ORDER BY clause, the composed query is the project
      restriction AND the filter in parentheses, a space and the clause. */
  lemma BuildJQLWithOrderBy(project: string, jql: string)
    requires SplitJQLOrderBy(jql).1 != ""
    ensures BuildJQL(project, jql) == Grouped(project, SplitJQLOrderBy(jql).0) + " " + SplitJQLOrderBy(jql).1
    ensures BuildJQL(project, jql)
         == "project = " + project + " AND (" + SplitJQLOrderBy(jql).0 + ") " + SplitJQLOrderBy(jql).1
  {
    assert jql != "";
    var split := SplitJQLOrderBy(jql);
    ComposeSpelled(project, split.0, split.1);
  }

  /** The group and a clause, written out. */
  lemma ComposeSpelled(project: string, filter: string, orderBy: string)
    requires orderBy != ""
    ensures Compose(project, filter, orderBy) == "project = " + project + " AND (" + filter + ") " + orderBy
  {
  }

  /** A non-empty query without ORDER BY becomes the project restriction
      AND the trimmed query in parentheses. */
  lemma BuildJQLWithoutOrderBy(project: string, jql: string)
    requires jql != "" && SplitJQLOrderBy(jql).1 == ""
    ensures SplitJQLOrderBy(jql).0 == TrimSpace(jql)
    ensures BuildJQL(project, jql) == "project = " + project + " AND (" + TrimSpace(jql) + ")"
  {
  }

  predicate StartsWith(s: string, prefix: string)
  {
    |prefix| <= |s| && s[..|prefix|] == prefix
  }

  /** The project restriction joined to an empty group: "project = P AND ()". */
  function EmptyGroup(project: string): string
  {
    Grouped(project, "")
  }

  /** As written, every non-empty query whose filter part is empty (a query
      that is only an ORDER BY clause, or only white space) is composed into
      one that starts with an empty group, which JQL rejects. */
  lemma BuildJQLEmptyGroup(project: string, jql: string)
    requires jql != "" && SplitJQLOrderBy(jql).0 == ""
    ensures StartsWith(BuildJQL(project, jql), EmptyGroup(project))
  {
    var split := SplitJQLOrderBy(jql);
    var g := EmptyGroup(project);
    if split.1 != "" {
      BuildJQLWithOrderBy(project, jql);
      assert (g + " " + split.1)[..|g|] == g;
    } else {
      assert BuildJQL(project, jql) == Compose(project, split.0, split.1);
    }
  }

  /** In "ORDER BY key" the keyword occurs only at the start. */
  lemma ExampleOrderByIndex()
    ensures OrderByIndex("ORDER BY key") == 0
  {
    var jql := "ORDER BY key";
    assert KeywordAt(jql, 0);
    var idx := OrderByIndex(jql);
  }

  /** A concrete query showing it: "ORDER BY key" has an empty filter ... */
  lemma ExampleSplit()
    ensures SplitJQLOrderBy("ORDER BY key") == ("", "ORDER BY key")
  {
    var jql := "ORDER BY key";
    ExampleOrderByIndex();
    assert jql[..0] == "";
    assert jql[0..] == jql;
    TrimSpaceNoop(jql);
  }

  /** ... and is composed into a query with an empty group. */
  lemma OrderByOnlyGivesEmptyGroup()
    ensures BuildJQL("PROJ", "ORDER BY key") == "project = PROJ AND () ORDER BY key"
  {
    ExampleSplit();
    assert BuildJQL("PROJ", "ORDER BY key") == Compose("PROJ", "", "ORDER BY key");
    ExampleCompose();
  }

  lemma ExampleCompose()
    ensures Compose("PROJ", "", "ORDER BY key") == "project = PROJ AND () ORDER BY key"
  {
    assert Grouped("PROJ", "") == "project = PROJ AND ()";
  }

  /** The corrected composition: the filter group only for a non-empty
      filter, then the ORDER BY clause when there is one. */
  function ComposeCorrected(project: string, filter: string, orderBy: string): string
  {
    var base := if filter != "" then Grouped(project, filter) else ProjectClause(project);
    if orderBy != "" then base + " " + orderBy else base
  }

  /** `buildJQL` with the empty group left out: an empty filter adds no AND
      clause. */
  function BuildJQLCorrected(project: string, jql: string): (r: string)
    ensures jql == "" ==> r == ProjectClause(project)
  {
    if jql != "" then
      var split := SplitJQLOrderBy(jql);
      ComposeCorrected(project, split.0, split.1)
    else ProjectClause(project)
  }

  /** Where there is a filter, the corrected composition is the original
      one. */
  lemma BuildJQLCorrectedAgrees(project: string, jql: string)
    requires SplitJQLOrderBy(jql).0 != ""
    ensures BuildJQLCorrected(project, jql) == BuildJQL(project, jql)
  {
  }

  /** The project restriction followed by a space and an ORDER BY clause
      does not start with an empty group: the clause starts with 'O' or 'o'
      where the group has 'A'. */
  lemma OrderByAfterProjectNotEmptyGroup(project: string, orderBy: string)
    requires KeywordAt(orderBy, 0)
    ensures !StartsWith(ProjectClause(project) + " " + orderBy, EmptyGroup(project))
  {
    var pc := ProjectClause(project);
    var g := EmptyGroup(project);
    assert g == pc + " AND ()";
    assert (pc + " " + orderBy)[|pc| + 1] == orderBy[0];
    assert g[|pc| + 1] == 'A';
  }

  /** Where there is no filter, the corrected composition never starts with
      an empty group. */
  lemma BuildJQLCorrectedNoEmptyGroup(project: string, jql: string)
    requires SplitJQLOrderBy(jql).0 == ""
    ensures !StartsWith(BuildJQLCorrected(project, jql), EmptyGroup(project))
  {
    var orderBy := SplitJQLOrderBy(jql).1;
    if jql != "" && orderBy != "" {
      assert OrderByIndex(jql) >= 0;
      assert BuildJQLCorrected(project, jql) == ProjectClause(project) + " " + orderBy;
      OrderByAfterProjectNotEmptyGroup(project, orderBy);
    } else {
      assert BuildJQLCorrected(project, jql) == ProjectClause(project);
      assert |EmptyGroup(project)| > |ProjectClause(project)|;
    }
  }

  /** The corrected composition still ends with the user's ORDER BY clause. */
  lemma BuildJQLCorrectedEndsWithOrderBy(project: string, jql: string)
    requires SplitJQLOrderBy(jql).1 != ""
    ensures var r := BuildJQLCorrected(project, jql);
      var orderBy := SplitJQLOrderBy(jql).1;
      |r| >= |orderBy| && r[|r| - |orderBy|..] == orderBy
  {
    var split := SplitJQLOrderBy(jql);
    var base := ComposeCorrected(project, split.0, "");
    CorrectedWithOrderBy(project, jql);
    assert (base + " " + split.1)[|base| + 1..] == split.1;
  }

  /** With an ORDER BY clause, the corrected query is its filter part
      composed alone, a space and the clause. */
  lemma CorrectedWithOrderBy(project: string, jql: string)
    requires SplitJQLOrderBy(jql).1 != ""
    ensures BuildJQLCorrected(project, jql)
         == ComposeCorrected(project, SplitJQLOrderBy(jql).0, "") + " " + SplitJQLOrderBy(jql).1
  {
    assert jql != "";
  }
}

=== FILE: job_builder.dfy ===
/** Construction of the Kubernetes Job that runs one Task: the agent
    container's arguments and credential environment, the optional
    workspace clone, the optional MCP configuration, and the fixed Job
    settings. Only the fields the builder sets are modelled. */
module JobBuilder {
  import opened Results
  import opened TaskApi
  import opened McpConfig
  import opened CommandLines

  const ClaudeCodeImage: string := "gjkim42/claude-code:latest"
  const AgentTypeClaudeCode: string := "claude-code"
  const GitCloneImage: string := "alpine/git:v2.47.2"
  const WorkspaceVolumeName: string := "workspace"
  const WorkspaceMountPath: string := "/workspace"
  /** The agent image's built-in user; init containers run as it and the
      pod's filesystem group is set to it. */
  const ClaudeCodeUID: int := 1100
  const MCPConfigVolumeName: string := "mcp-config"
  const MCPConfigMountPath: string := "/home/claude/.mcp"
  const MCPConfigFileName: string := "mcp.json"
  const MCPConfigInitImage: string := "busybox:1.37"

  const MCPConfigPath: string := MCPConfigMountPath + "/" + MCPConfigFileName
  const RepoPath: string := WorkspaceMountPath + "/repo"

  lemma PathConstants()
    ensures MCPConfigPath == "/home/claude/.mcp/mcp.json"
    ensures RepoPath == "/workspace/repo"
  {
  }

  /** Shell script of the clone init container when the workspace has a
      token: run git with an inline credential helper that answers with the
      token from $GITHUB_TOKEN, passing the script's positional arguments. */
  const GitCredentialHelperScript: string :=
    "exec git -c credential.helper='!f() { echo \"username=x-access-token\"; echo \"password=$GITHUB_TOKEN\"; }; f' \"$@\""

  /** The `-c` setting that script hands to git once the shell has removed
      its quotes. */
  const CredentialHelperSetting: string :=
    "credential.helper=!f() { echo \"username=x-access-token\"; echo \"password=$GITHUB_TOKEN\"; }; f"

  /** A key of a Secret. */
  datatype SecretKeyRef = SecretKeyRef(secretName: string, key: string)

  /** Where an environment variable's value comes from: a Secret key, a
      literal string, or the JSON text of an MCP configuration document. */
  datatype EnvSource =
    | FromSecret(ref: SecretKeyRef)
    | Literal(value: string)
    | McpConfigText(config: McpConfigJson)

  datatype EnvVar = EnvVar(name: string, source: EnvSource)

  datatype VolumeMount = VolumeMount(name: string, mountPath: string, readOnly: bool)

  /** Every volume the builder creates is an emptyDir. */
  datatype Volume = EmptyDirVolume(name: string)

  /** A container; `runAsUser` is None when no security context is set. */
  datatype Container = Container(
    name: string,
    image: string,
    imagePullPolicy: string,
    command: seq<string>,
    args: seq<string>,
    env: seq<EnvVar>,
    volumeMounts: seq<VolumeMount>,
    workingDir: string,
    runAsUser: Option<int>)

  /** A pod spec; `fsGroup` is None when no pod security context is set. */
  datatype PodSpec = PodSpec(
    restartPolicy: string,
    fsGroup: Option<int>,
    initContainers: seq<Container>,
    volumes: seq<Volume>,
    containers: seq<Container>)

  datatype ObjectMeta = ObjectMeta(name: string, namespace: string, labels: map<string, string>)

  datatype PodTemplate = PodTemplate(labels: map<string, string>, spec: PodSpec)

  datatype Job = Job(metadata: ObjectMeta, backoffLimit: int, template: PodTemplate)

  /** Builder configuration: the agent image and its pull policy ("" when
      unset). */
  datatype JobBuilder = JobBuilder(claudeCodeImage: string, claudeCodeImagePullPolicy: string)

  /** `NewJobBuilder`: the default agent image and no pull policy. */
  function NewJobBuilder(): (b: JobBuilder)
    ensures b.claudeCodeImage == "gjkim42/claude-code:latest"
    ensures b.claudeCodeImagePullPolicy == ""
  {
    JobBuilder(ClaudeCodeImage, "")
  }

  function SecretEnv(name: string, secretName: string, key: string): EnvVar
  {
    EnvVar(name, FromSecret(SecretKeyRef(secretName, key)))
  }

  /** The agent credential: one variable per known credential kind, read
      from the key of the same name in the Task's Secret. */
  function CredentialEnv(c: Credentials): seq<EnvVar>
  {
    if c.credType == CredentialTypeAPIKey then
      [SecretEnv("ANTHROPIC_API_KEY", c.secretRef.name, "ANTHROPIC_API_KEY")]
    else if c.credType == CredentialTypeOAuth then
      [SecretEnv("CLAUDE_CODE_OAUTH_TOKEN", c.secretRef.name, "CLAUDE_CODE_OAUTH_TOKEN")]
    else []
  }

  /** The GitHub token of a workspace that has a Secret, under both names
      the git and gh tools read. */
  function WorkspaceTokenEnv(ws: Option<WorkspaceSpec>): seq<EnvVar>
  {
    if ws.Some? && ws.value.secretRef.Some? then
      var name := ws.value.secretRef.value.name;
      [SecretEnv("GITHUB_TOKEN", name, "GITHUB_TOKEN"), SecretEnv("GH_TOKEN", name, "GITHUB_TOKEN")]
    else []
  }

  /** The agent's arguments. */
  function ClaudeArgs(spec: TaskSpec): seq<string>
  {
    ["--dangerously-skip-permissions", "--output-format", "stream-json", "--verbose", "-p", spec.prompt]
    + (if spec.model != "" then ["--model", spec.model] else [])
    + (if |spec.mcpServers| > 0 then ["--mcp-config", MCPConfigPath] else [])
  }

  /** The init container that writes the MCP configuration document into the
      shared volume. */
  function McpInitContainer(config: McpConfigJson): Container
  {
    Container(
      "mcp-config", MCPConfigInitImage, "",
      ["sh", "-c", "printf '%s' \"$MCP_CONFIG\" > " + MCPConfigPath],
      [],
      [EnvVar("MCP_CONFIG", McpConfigText(config))],
      [VolumeMount(MCPConfigVolumeName, MCPConfigMountPath, false)],
      "",
      Some(ClaudeCodeUID))
  }

  /** `git clone` arguments for a workspace: a shallow clone of all branches,
      checking out the ref when one is given. */
  function CloneArgs(ws: WorkspaceSpec): seq<string>
  {
    ["clone"]
    + (if ws.ref != "" then ["--branch", ws.ref] else [])
    + ["--no-single-branch", "--depth", "1", "--", ws.repo, RepoPath]
  }

  /** The init container that clones the workspace; with a token it runs
      through the credential-helper shell script, whose `$0` takes the
      leading "--". */
  function GitCloneContainer(ws: WorkspaceSpec): Container
  {
    var plain := Container(
      "git-clone", GitCloneImage, "", [], CloneArgs(ws),
      WorkspaceTokenEnv(Some(ws)),
      [VolumeMount(WorkspaceVolumeName, WorkspaceMountPath, false)],
      "",
      Some(ClaudeCodeUID));
    if ws.secretRef.Some? then
      plain.(command := ["sh", "-c", GitCredentialHelperScript], args := ["--"] + CloneArgs(ws))
    else plain
  }

  /** The labels put on both the Job and its pod template. */
  function TaskLabels(taskName: string): map<string, string>
  {
    map[
      "app.kubernetes.io/name" := "axon",
      "app.kubernetes.io/component" := "task",
      "app.kubernetes.io/managed-by" := "axon-controller",
      "axon.io/task" := taskName]
  }

  /** The agent container. */
  function AgentContainer(b: JobBuilder, spec: TaskSpec, ws: Option<WorkspaceSpec>): Container
  {
    Container(
      "claude-code", b.claudeCodeImage, b.claudeCodeImagePullPolicy, [],
      ClaudeArgs(spec),
      CredentialEnv(spec.credentials) + WorkspaceTokenEnv(ws),
      (if |spec.mcpServers| > 0 then [VolumeMount(MCPConfigVolumeName, MCPConfigMountPath, true)] else [])
      + (if ws.Some? then [VolumeMount(WorkspaceVolumeName, WorkspaceMountPath, false)] else []),
      if ws.Some? then RepoPath else "",
      None)
  }

  /** The init containers: the MCP writer first, then the clone. */
  function InitContainers(spec: TaskSpec, ws: Option<WorkspaceSpec>): seq<Container>
  {
    (if |spec.mcpServers| > 0 then [McpInitContainer(BuildMCPConfig(spec.mcpServers))] else [])
    + (if ws.Some? then [GitCloneContainer(ws.value)] else [])
  }

  /** The pod volumes: the MCP volume first, then the workspace. */
  function Volumes(spec: TaskSpec, ws: Option<WorkspaceSpec>): seq<Volume>
  {
    (if |spec.mcpServers| > 0 then [EmptyDirVolume(MCPConfigVolumeName)] else [])
    + (if ws.Some? then [EmptyDirVolume(WorkspaceVolumeName)] else [])
  }

  /** `buildClaudeCodeJob`. */
  function BuildClaudeCodeJob(b: JobBuilder, task: Task, ws: Option<WorkspaceSpec>): (job: Job)
    ensures job.metadata.name == task.name && job.metadata.namespace == task.namespace
    ensures job.backoffLimit == 0
    ensures job.template.spec.restartPolicy == "Never"
    ensures |job.template.spec.containers| == 1
    ensures job.template.spec.containers[0].name == "claude-code"
    ensures job.template.spec.containers[0].image == b.claudeCodeImage
    ensures job.metadata.labels == job.template.labels
    ensures "axon.io/task" in job.metadata.labels && job.metadata.labels["axon.io/task"] == task.name
  {
    var fsGroup := if ws.Some? then Some(ClaudeCodeUID) else None;
    var labels := TaskLabels(task.name);
    Job(
      ObjectMeta(task.name, task.namespace, labels),
      0,
      PodTemplate(labels, PodSpec(
        "Never", fsGroup,
        InitContainers(task.spec, ws),
        Volumes(task.spec, ws),
        [AgentContainer(b, task.spec, ws)])))
  }

  /** `Build`: only the claude-code agent type is supported; any other type
      is a configuration error and yields no Job. */
  function Build(b: JobBuilder, task: Task, ws: Option<WorkspaceSpec>): (r: Result<Job>)
    ensures r.Err? <==> task.spec.agentType != "claude-code"
    ensures r.Err? ==> r.msg == "unsupported agent type: " + task.spec.agentType
    ensures r.Ok? ==> r.value.metadata.name == task.name && r.value.backoffLimit == 0
    ensures r.Ok? ==> |r.value.template.spec.containers| == 1
    ensures r.Ok? ==> r.value == BuildClaudeCodeJob(b, task, ws)
  {
    if task.spec.agentType == AgentTypeClaudeCode then Ok(BuildClaudeCodeJob(b, task, ws))
    else Err("unsupported agent type: " + task.spec.agentType)
  }

  // ---------------------------------------------------------------------
  // Reading the Job back

  /** The single agent container of a built Job. */
  function MainContainer(job: Job): Container
    requires |job.template.spec.containers| > 0
  {
    job.template.spec.containers[0]
  }

  /** How many variables in `env` are called `name`. */
  function CountNamed(env: seq<EnvVar>, name: string): nat
  {
    if |env| == 0 then 0
    else (if env[0].name == name then 1 else 0) + CountNamed(env[1..], name)
  }

  /** The source of the first variable called `name`. */
  function Lookup(env: seq<EnvVar>, name: string): Option<EnvSource>
  {
    if |env| == 0 then None
    else if env[0].name == name then Some(env[0].source)
    else Lookup(env[1..], name)
  }

  /** Every variable takes its value from a Secret key. */
  predicate AllFromSecrets(env: seq<EnvVar>)
  {
    forall i :: 0 <= i < |env| ==> env[i].source.FromSecret?
  }

  lemma {:induction false} CountNamedAppend(a: seq<EnvVar>, b: seq<EnvVar>, name: string)
    ensures CountNamed(a + b, name) == CountNamed(a, name) + CountNamed(b, name)
    decreases |a|
  {
    if |a| > 0 {
      assert (a + b)[1..] == a[1..] + b;
      CountNamedAppend(a[1..], b, name);
    } else {
      assert a + b == b;
    }
  }

  lemma {:induction false} LookupAppend(a: seq<EnvVar>, b: seq<EnvVar>, name: string)
    ensures CountNamed(a, name) == 0 ==> Lookup(a + b, name) == Lookup(b, name)
    ensures CountNamed(a, name) > 0 ==> Lookup(a + b, name) == Lookup(a, name)
    decreases |a|
  {
    if |a| > 0 {
      assert (a + b)[1..] == a[1..] + b;
      LookupAppend(a[1..], b, name);
    } else {
      assert a + b == b;
    }
  }

  /** How the clone init container's process sees its argument vector: with
      no command the image's entrypoint (git) receives the args; the
      credential-helper script binds `$0` to the first arg and passes the rest
      to git after its `-c` setting. */
  function GitArgv(c: Container): Option<seq<string>>
  {
    if c.command == [] then Some(c.args)
    else if c.command == ["sh", "-c", GitCredentialHelperScript] && |c.args| >= 1 then
      Some(["-c", CredentialHelperSetting] + c.args[1..])
    else None
  }
}

=== FILE: job_properties.dfy ===
/** What a built Job promises, stated by reading the Job back: the agent's
    command line as the agent CLI parses it, the credential variables by
    name, the MCP and workspace wiring, and the clone as git parses it. */
module JobProperties {
  import opened Results
  import opened TaskApi
  import opened McpConfig
  import opened CommandLines
  import opened JobBuilder

  lemma ParseModelFlag(m: string, rest: seq<string>, acc: ClaudeInvocation)
    requires acc.model.None?
    ensures ParseClaudeFlags(["--model", m] + rest, acc) == ParseClaudeFlags(rest, acc.(model := Some(m)))
  {
    assert (["--model", m] + rest)[2..] == rest;
  }

  lemma ParseMcpConfigFlag(path: string, acc: ClaudeInvocation)
    requires acc.mcpConfig.None?
    ensures ParseClaudeFlags(["--mcp-config", path], acc) == Some(acc.(mcpConfig := Some(path)))
  {
    assert ["--mcp-config", path][2..] == [];
  }

  /** The agent CLI reads the builder's arguments back as the Task's prompt,
      its model exactly when one is set, and the MCP configuration path
      exactly when MCP servers are declared. */
  lemma ClaudeArgsRead(spec: TaskSpec)
    ensures ParseClaudeArgs(ClaudeArgs(spec)) == Some(ClaudeInvocation(
              spec.prompt,
              if spec.model != "" then Some(spec.model) else None,
              if |spec.mcpServers| > 0 then Some("/home/claude/.mcp/mcp.json") else None))
  {
    PathConstants();
    var args := ClaudeArgs(spec);
    var modelPart: seq<string> := if spec.model != "" then ["--model", spec.model] else [];
    var mcpPart: seq<string> := if |spec.mcpServers| > 0 then ["--mcp-config", MCPConfigPath] else [];
    assert args[..5] == ClaudeFixedFlags;
    assert args[6..] == modelPart + mcpPart;
    var start := ClaudeInvocation(spec.prompt, None, None);
    assert ParseClaudeArgs(args) == ParseClaudeFlags(modelPart + mcpPart, start);
    var afterModel := if spec.model != "" then start.(model := Some(spec.model)) else start;
    if spec.model != "" {
      ParseModelFlag(spec.model, mcpPart, start);
    } else {
      assert modelPart + mcpPart == mcpPart;
    }
    if |spec.mcpServers| > 0 {
      ParseMcpConfigFlag(MCPConfigPath, afterModel);
    }
  }

  /** The agent's command line: the fixed flags and the prompt first, the MCP
      flag last, and read back by the agent CLI as exactly the Task's prompt,
      its model when one is set, and the MCP configuration path when MCP
      servers are declared. */
  lemma AgentArgs(b: JobBuilder, task: Task, ws: Option<WorkspaceSpec>)
    ensures var args := MainContainer(BuildClaudeCodeJob(b, task, ws)).args;
      && |args| == 6 + (if task.spec.model != "" then 2 else 0) + (if |task.spec.mcpServers| > 0 then 2 else 0)
      && args[..6] == ["--dangerously-skip-permissions", "--output-format", "stream-json", "--verbose", "-p", task.spec.prompt]
      && (|task.spec.mcpServers| > 0 ==> args[|args| - 2..] == ["--mcp-config", "/home/claude/.mcp/mcp.json"])
      && ParseClaudeArgs(args) == Some(ClaudeInvocation(
           task.spec.prompt,
           if task.spec.model != "" then Some(task.spec.model) else None,
           if |task.spec.mcpServers| > 0 then Some("/home/claude/.mcp/mcp.json") else None))
  {
    assert MainContainer(BuildClaudeCodeJob(b, task, ws)) == AgentContainer(b, task.spec, ws);
    PathConstants();
    ClaudeArgsRead(task.spec);
  }

  lemma CredentialEnvNames(c: Credentials)
    ensures var env := CredentialEnv(c);
      && AllFromSecrets(env)
      && CountNamed(env, "ANTHROPIC_API_KEY") == (if c.credType == "api-key" then 1 else 0)
      && CountNamed(env, "CLAUDE_CODE_OAUTH_TOKEN") == (if c.credType == "oauth" then 1 else 0)
      && CountNamed(env, "GITHUB_TOKEN") == 0
      && CountNamed(env, "GH_TOKEN") == 0
      && (c.credType == "api-key" ==>
            Lookup(env, "ANTHROPIC_API_KEY") == Some(FromSecret(SecretKeyRef(c.secretRef.name, "ANTHROPIC_API_KEY"))))
      && (c.credType == "oauth" ==>
            Lookup(env, "CLAUDE_CODE_OAUTH_TOKEN") == Some(FromSecret(SecretKeyRef(c.secretRef.name, "CLAUDE_CODE_OAUTH_TOKEN"))))
  {
  }

  lemma CountNamedTwo(x: EnvVar, y: EnvVar, name: string)
    ensures CountNamed([x, y], name) == (if x.name == name then 1 else 0) + (if y.name == name then 1 else 0)
  {
    assert [x, y][1..] == [y];
    assert [y][1..] == [];
    assert CountNamed([y], name) == (if y.name == name then 1 else 0) + CountNamed([], name);
  }

  lemma {:induction false} WorkspaceTokenEnvNames(ws: Option<WorkspaceSpec>)
    ensures var env := WorkspaceTokenEnv(ws);
            var hasToken := ws.Some? && ws.value.secretRef.Some?;
      && AllFromSecrets(env)
      && CountNamed(env, "ANTHROPIC_API_KEY") == 0
      && CountNamed(env, "CLAUDE_CODE_OAUTH_TOKEN") == 0
      && CountNamed(env, "GITHUB_TOKEN") == (if hasToken then 1 else 0)
      && CountNamed(env, "GH_TOKEN") == (if hasToken then 1 else 0)
      && (hasToken ==>
            var src := Some(FromSecret(SecretKeyRef(ws.value.secretRef.value.name, "GITHUB_TOKEN")));
            Lookup(env, "GITHUB_TOKEN") == src && Lookup(env, "GH_TOKEN") == src)
  {
    var env := WorkspaceTokenEnv(ws);
    if |env| > 0 {
      CountNamedTwo(env[0], env[1], "ANTHROPIC_API_KEY");
      CountNamedTwo(env[0], env[1], "CLAUDE_CODE_OAUTH_TOKEN");
      CountNamedTwo(env[0], env[1], "GITHUB_TOKEN");
      CountNamedTwo(env[0], env[1], "GH_TOKEN");
      assert env[1..] == [env[1]];
    }
  }

  /** The agent credential is exactly one variable, named after the
      credential kind, read from the key of the same name in the Task's
      Secret; no other credential variable appears, and no variable of the
      agent container carries an inline value. The agent has no variables
      besides its credential and the two workspace token names. */
  lemma CredentialWiring(b: JobBuilder, task: Task, ws: Option<WorkspaceSpec>)
    ensures var env := MainContainer(BuildClaudeCodeJob(b, task, ws)).env;
            var kind := task.spec.credentials.credType;
            var secret := task.spec.credentials.secretRef.name;
      && AllFromSecrets(env)
      && |env| == (if kind == "api-key" || kind == "oauth" then 1 else 0)
                  + (if ws.Some? && ws.value.secretRef.Some? then 2 else 0)
      && CountNamed(env, "ANTHROPIC_API_KEY") == (if kind == "api-key" then 1 else 0)
      && CountNamed(env, "CLAUDE_CODE_OAUTH_TOKEN") == (if kind == "oauth" then 1 else 0)
      && (kind == "api-key" ==>
            Lookup(env, "ANTHROPIC_API_KEY") == Some(FromSecret(SecretKeyRef(secret, "ANTHROPIC_API_KEY"))))
      && (kind == "oauth" ==>
            Lookup(env, "CLAUDE_CODE_OAUTH_TOKEN") == Some(FromSecret(SecretKeyRef(secret, "CLAUDE_CODE_OAUTH_TOKEN"))))
  {
    var cred := CredentialEnv(task.spec.credentials);
    var tok := WorkspaceTokenEnv(ws);
    assert MainContainer(BuildClaudeCodeJob(b, task, ws)).env == cred + tok;
    CredentialEnvNames(task.spec.credentials);
    WorkspaceTokenEnvNames(ws);
    CountNamedAppend(cred, tok, "ANTHROPIC_API_KEY");
    CountNamedAppend(cred, tok, "CLAUDE_CODE_OAUTH_TOKEN");
    LookupAppend(cred, tok, "ANTHROPIC_API_KEY");
    LookupAppend(cred, tok, "CLAUDE_CODE_OAUTH_TOKEN");
  }

  /** A workspace with a Secret gives both the agent and the clone init
      container exactly one GITHUB_TOKEN and one GH_TOKEN, both read from the
      GITHUB_TOKEN key of that Secret; without a Secret neither appears. */
  lemma WorkspaceTokenWiring(b: JobBuilder, task: Task, ws: Option<WorkspaceSpec>)
    ensures var env := MainContainer(BuildClaudeCodeJob(b, task, ws)).env;
            var hasToken := ws.Some? && ws.value.secretRef.Some?;
      && CountNamed(env, "GITHUB_TOKEN") == (if hasToken then 1 else 0)
      && CountNamed(env, "GH_TOKEN") == (if hasToken then 1 else 0)
      && (hasToken ==>
            var src := Some(FromSecret(SecretKeyRef(ws.value.secretRef.value.name, "GITHUB_TOKEN")));
            Lookup(env, "GITHUB_TOKEN") == src && Lookup(env, "GH_TOKEN") == src)
    ensures var inits := BuildClaudeCodeJob(b, task, ws).template.spec.initContainers;
            var hasToken := ws.Some? && ws.value.secretRef.Some?;
      ws.Some? ==>
        && |inits| > 0
        && inits[|inits| - 1].name == "git-clone"
        && CountNamed(inits[|inits| - 1].env, "GITHUB_TOKEN") == (if hasToken then 1 else 0)
        && CountNamed(inits[|inits| - 1].env, "GH_TOKEN") == (if hasToken then 1 else 0)
        && (hasToken ==>
              var src := Some(FromSecret(SecretKeyRef(ws.value.secretRef.value.name, "GITHUB_TOKEN")));
              Lookup(inits[|inits| - 1].env, "GITHUB_TOKEN") == src
              && Lookup(inits[|inits| - 1].env, "GH_TOKEN") == src)
  {
    var cred := CredentialEnv(task.spec.credentials);
    var tok := WorkspaceTokenEnv(ws);
    assert MainContainer(BuildClaudeCodeJob(b, task, ws)).env == cred + tok;
    CredentialEnvNames(task.spec.credentials);
    WorkspaceTokenEnvNames(ws);
    CountNamedAppend(cred, tok, "GITHUB_TOKEN");
    CountNamedAppend(cred, tok, "GH_TOKEN");
    LookupAppend(cred, tok, "GITHUB_TOKEN");
    LookupAppend(cred, tok, "GH_TOKEN");
    if ws.Some? {
      var inits := InitContainers(task.spec, ws);
      assert inits[|inits| - 1] == GitCloneContainer(ws.value);
      assert GitCloneContainer(ws.value).env == tok;
    }
  }

  /** Declared MCP servers add the `mcp-config` emptyDir volume (first), its
      read-only mount on the agent (first), and the `mcp-config` init
      container (first) running as the agent's user with the document in
      MCP_CONFIG. That container mounts the same volume at the same path and
      writes the document to the file the agent's `--mcp-config` names. One
      init container and one volume exist per feature in use, so with
      neither MCP servers nor a workspace there are none. */
  lemma McpWiring(b: JobBuilder, task: Task, ws: Option<WorkspaceSpec>)
    ensures var pod := BuildClaudeCodeJob(b, task, ws).template.spec;
            var count := (if |task.spec.mcpServers| > 0 then 1 else 0) + (if ws.Some? then 1 else 0);
      |pod.initContainers| == count && |pod.volumes| == count && |pod.containers[0].volumeMounts| == count
    ensures var pod := BuildClaudeCodeJob(b, task, ws).template.spec;
            var main := pod.containers[0];
      |task.spec.mcpServers| > 0 ==>
        && pod.volumes[0] == EmptyDirVolume("mcp-config")
        && main.volumeMounts[0] == VolumeMount("mcp-config", "/home/claude/.mcp", true)
        && pod.initContainers[0].name == "mcp-config"
        && pod.initContainers[0].runAsUser == Some(1100)
        && pod.initContainers[0].env == [EnvVar("MCP_CONFIG", McpConfigText(BuildMCPConfig(task.spec.mcpServers)))]
    ensures var pod := BuildClaudeCodeJob(b, task, ws).template.spec;
            var main := pod.containers[0];
      |task.spec.mcpServers| > 0 ==>
        && |pod.initContainers| > 0
        && pod.initContainers[0].image == "busybox:1.37"
        && pod.initContainers[0].volumeMounts == [VolumeMount("mcp-config", "/home/claude/.mcp", false)]
        && pod.initContainers[0].command
           == ["sh", "-c", "printf '%s' \"$MCP_CONFIG\" > /home/claude/.mcp/mcp.json"]
        && |main.args| > 0 && main.args[|main.args| - 1] == "/home/claude/.mcp/mcp.json"
    ensures var pod := BuildClaudeCodeJob(b, task, ws).template.spec;
      |task.spec.mcpServers| == 0 ==>
        forall i :: 0 <= i < |pod.volumes| ==> pod.volumes[i].name != "mcp-config"
  {
    if |task.spec.mcpServers| > 0 {
      var pod := BuildClaudeCodeJob(b, task, ws).template.spec;
      assert pod.initContainers[0] == McpInitContainer(BuildMCPConfig(task.spec.mcpServers));
      McpInitWrites(BuildMCPConfig(task.spec.mcpServers));
      McpConfigLastArg(task.spec);
    }
  }

  /** The MCP init container writes the document into its mount of the
      `mcp-config` volume. */
  lemma McpInitWrites(config: McpConfigJson)
    ensures var c := McpInitContainer(config);
      && c.image == "busybox:1.37"
      && c.volumeMounts == [VolumeMount("mcp-config", "/home/claude/.mcp", false)]
      && c.command == ["sh", "-c", "printf '%s' \"$MCP_CONFIG\" > /home/claude/.mcp/mcp.json"]
  {
    PathConstants();
    assert "printf '%s' \"$MCP_CONFIG\" > " + MCPConfigPath
        == "printf '%s' \"$MCP_CONFIG\" > /home/claude/.mcp/mcp.json";
  }

  /** With MCP servers the agent's last argument is the configuration file. */
  lemma McpConfigLastArg(spec: TaskSpec)
    requires |spec.mcpServers| > 0
    ensures |ClaudeArgs(spec)| > 0 && ClaudeArgs(spec)[|ClaudeArgs(spec)| - 1] == "/home/claude/.mcp/mcp.json"
  {
    PathConstants();
  }

  lemma ParseCloneTail(repo: string, acc: CloneRequest)
    ensures ParseCloneOptions(["--no-single-branch", "--depth", "1", "--", repo, RepoPath], acc)
         == Some(acc.(noSingleBranch := true, depth := Some("1"), repo := repo, directory := RepoPath))
  {
    var tail := ["--no-single-branch", "--depth", "1", "--", repo, RepoPath];
    var acc1 := acc.(noSingleBranch := true);
    var acc2 := acc1.(depth := Some("1"));
    assert tail[1..] == ["--depth", "1", "--", repo, RepoPath];
    assert ParseCloneOptions(tail, acc) == ParseCloneOptions(tail[1..], acc1);
    assert tail[1..][2..] == ["--", repo, RepoPath];
    assert ParseCloneOptions(tail[1..], acc1) == ParseCloneOptions(["--", repo, RepoPath], acc2);
  }

  lemma ParseBranchOption(ref: string, rest: seq<string>, acc: CloneRequest)
    ensures ParseCloneOptions(["--branch", ref] + rest, acc) == ParseCloneOptions(rest, acc.(branch := Some(ref)))
  {
    assert (["--branch", ref] + rest)[2..] == rest;
  }

  /** `git clone` reads the clone arguments as a shallow clone of all
      branches of the workspace repository into /workspace/repo, on the ref
      when one is given, with or without a leading credential-helper
      setting; "--" keeps a repository string from being read as an
      option. */
  lemma CloneArgsRead(ws: WorkspaceSpec)
    ensures var req := CloneRequest(
              if ws.ref != "" then Some(ws.ref) else None, true, Some("1"), ws.repo, "/workspace/repo");
      && ParseGitClone(CloneArgs(ws)) == Some(([], req))
      && ParseGitClone(["-c", CredentialHelperSetting] + CloneArgs(ws)) == Some(([CredentialHelperSetting], req))
  {
    PathConstants();
    var tail := ["--no-single-branch", "--depth", "1", "--", ws.repo, RepoPath];
    var args := CloneArgs(ws);
    var start := CloneRequest(None, false, None, "", "");
    var afterRef := if ws.ref != "" then start.(branch := Some(ws.ref)) else start;
    if ws.ref != "" {
      assert args[1..] == ["--branch", ws.ref] + tail;
      ParseBranchOption(ws.ref, tail, start);
    } else {
      assert args[1..] == tail;
    }
    ParseCloneTail(ws.repo, afterRef);
    var withHelper := ["-c", CredentialHelperSetting] + args;
    assert withHelper[2..] == args;
    assert [CredentialHelperSetting] + [] == [CredentialHelperSetting];
  }

  /** The clone init container: named `git-clone`, running the git image as
      the agent's user, and asking git for the workspace's clone; with a
      Secret it runs through the credential-helper script, whose `$0` absorbs
      the leading "--", so git sees the helper setting followed by the same
      clone arguments. */
  lemma GitCloneRead(ws: WorkspaceSpec)
    ensures var clone := GitCloneContainer(ws);
      && clone.name == "git-clone"
      && clone.image == "alpine/git:v2.47.2"
      && clone.runAsUser == Some(1100)
      && (ws.secretRef.Some? ==>
            clone.command == ["sh", "-c", GitCredentialHelperScript] && clone.args == ["--"] + CloneArgs(ws))
      && (ws.secretRef.None? ==> clone.command == [] && clone.args == CloneArgs(ws))
      && GitArgv(clone).Some?
      && ParseGitClone(GitArgv(clone).value) == Some((
           if ws.secretRef.Some? then [CredentialHelperSetting] else [],
           CloneRequest(if ws.ref != "" then Some(ws.ref) else None, true, Some("1"), ws.repo, "/workspace/repo")))
  {
    CloneArgsRead(ws);
    var clone := GitCloneContainer(ws);
    if ws.secretRef.Some? {
      assert clone.args[1..] == CloneArgs(ws);
    }
  }

  /** A workspace sets the pod's filesystem group to the agent's user,
      appends the `workspace` volume (after the MCP volume, if any), makes
      /workspace/repo the agent's working directory, and appends the
      `git-clone` init container described by `GitCloneRead`. The clone
      container and the agent mount that one volume at /workspace, the
      agent's mount coming last. */
  lemma WorkspacePresent(b: JobBuilder, task: Task, ws: WorkspaceSpec)
    ensures var pod := BuildClaudeCodeJob(b, task, Some(ws)).template.spec;
      && pod.fsGroup == Some(1100)
      && |pod.volumes| > 0 && pod.volumes[|pod.volumes| - 1] == EmptyDirVolume("workspace")
      && pod.containers[0].workingDir == "/workspace/repo"
      && |pod.initContainers| > 0
      && pod.initContainers[|pod.initContainers| - 1] == GitCloneContainer(ws)
      && GitCloneContainer(ws).volumeMounts == [VolumeMount("workspace", "/workspace", false)]
      && |pod.containers[0].volumeMounts| > 0
      && pod.containers[0].volumeMounts[|pod.containers[0].volumeMounts| - 1]
         == VolumeMount("workspace", "/workspace", false)
  {
    PathConstants();
    var inits := InitContainers(task.spec, Some(ws));
    assert inits[|inits| - 1] == GitCloneContainer(ws);
    var vols := Volumes(task.spec, Some(ws));
    assert vols[|vols| - 1] == EmptyDirVolume(WorkspaceVolumeName);
  }

  /** Without a workspace there is no pod security context, no working
      directory, no clone init container and no workspace volume. */
  lemma WorkspaceAbsent(b: JobBuilder, task: Task)
    ensures var pod := BuildClaudeCodeJob(b, task, None).template.spec;
      && pod.fsGroup.None?
      && pod.containers[0].workingDir == ""
      && (forall i :: 0 <= i < |pod.initContainers| ==> pod.initContainers[i].name != "git-clone")
      && (forall i :: 0 <= i < |pod.volumes| ==> pod.volumes[i].name != "workspace")
  {
    NoWorkspaceParts(task.spec);
  }

  /** Without a workspace the only init container and the only volume are
      the MCP ones. */
  lemma NoWorkspaceParts(spec: TaskSpec)
    ensures forall i :: 0 <= i < |InitContainers(spec, None)| ==> InitContainers(spec, None)[i].name == "mcp-config"
    ensures forall i :: 0 <= i < |Volumes(spec, None)| ==> Volumes(spec, None)[i].name == "mcp-config"
  {
  }
}

=== FILE: mcp_config.dfy ===
/** The MCP configuration document handed to the agent: one record per MCP
    server, carrying only the fields that the server's transport uses. The
    JSON text itself is not modelled; `McpConfigJson` is the structure that
    is serialised (empty fields are omitted from the text). */
module McpConfig {
  import opened TaskApi

  /** One server entry of the document. */
  datatype McpServerJson = McpServerJson(
    serverType: string,
    command: string,
    args: seq<string>,
    url: string,
    env: map<string, string>,
    headers: map<string, string>)

  /** The whole document: server name -> entry. */
  datatype McpConfigJson = McpConfigJson(mcpServers: map<string, McpServerJson>)

  predicate IsUrlTransport(t: string)
  {
    t == "http" || t == "sse"
  }

  /** The entry written for one server. */
  function ServerJson(s: MCPServer): (j: McpServerJson)
    // the transport and the environment are always carried over
    ensures j.serverType == s.serverType && j.env == s.env
    // stdio carries the command line and nothing of the URL transports
    ensures s.serverType == "stdio" ==>
      j.command == s.command && j.args == s.args && j.url == "" && j.headers == map[]
    // http and sse carry the URL and headers and no command line
    ensures IsUrlTransport(s.serverType) ==>
      j.url == s.url && j.headers == s.headers && j.command == "" && j.args == []
    // any other transport carries only its type and environment
    ensures s.serverType != "stdio" && !IsUrlTransport(s.serverType) ==>
      j.command == "" && j.args == [] && j.url == "" && j.headers == map[]
  {
    var base := McpServerJson(s.serverType, "", [], "", if |s.env| > 0 then s.env else map[], map[]);
    if s.serverType == "stdio" then
      base.(command := s.command, args := s.args)
    else if IsUrlTransport(s.serverType) then
      base.(url := s.url, headers := if |s.headers| > 0 then s.headers else map[])
    else
      base
  }

  /** `buildMCPConfig`: one entry per server name. */
  function BuildMCPConfig(servers: map<string, MCPServer>): (c: McpConfigJson)
    ensures c.mcpServers.Keys == servers.Keys
    ensures forall name :: name in servers ==> c.mcpServers[name] == ServerJson(servers[name])
  {
    McpConfigJson(map name | name in servers :: ServerJson(servers[name]))
  }

  /** Reading an entry back as a server definition. */
  function ServerFromJson(j: McpServerJson): MCPServer
  {
    MCPServer(j.serverType, j.command, j.args, j.url, j.env, j.headers)
  }

  /** The server with the fields its transport does not use cleared. */
  function ForTransport(s: MCPServer): (r: MCPServer)
  {
    if s.serverType == "stdio" then s.(url := "", headers := map[])
    else if IsUrlTransport(s.serverType) then s.(command := "", args := [])
    else s.(command := "", args := [], url := "", headers := map[])
  }

  /** A server that sets only the fields of its own transport. */
  predicate WellFormedForTransport(s: MCPServer)
  {
    ForTransport(s) == s
  }

  /** Reading the document back yields exactly the declared servers, each
      restricted to the fields its transport uses; for servers that set only
      those fields the round trip is exact. */
  lemma McpConfigRoundTrip(servers: map<string, MCPServer>)
    ensures BuildMCPConfig(servers).mcpServers.Keys == servers.Keys
    ensures forall name :: name in servers ==>
      ServerFromJson(BuildMCPConfig(servers).mcpServers[name]) == ForTransport(servers[name])
    ensures forall name :: name in servers && WellFormedForTransport(servers[name]) ==>
      ServerFromJson(BuildMCPConfig(servers).mcpServers[name]) == servers[name]
  {
  }
}

=== FILE: results.dfy ===
/** Optional values and error-carrying results, the Dafny counterparts of Go's
    nil pointers and `(value, error)` pairs. */
module Results {

  /** A value that may be absent (a Go pointer that may be nil). */
  datatype Option<+T> = None | Some(value: T)

  /** Either a value or an error message (a Go `(T, error)` return). */
  datatype Result<+T> = Ok(value: T) | Err(msg: string) {
    predicate IsFailure() {
      Err?
    }

    function PropagateFailure<U>(): Result<U>
      requires Err?
    {
      Err(msg)
    }

    function Extract(): T
      requires Ok?
    {
      value
    }
  }
}

=== FILE: task_api.dfy ===
/** The parts of the Task resource that the Job builder reads: the spec of a
    Task, its credentials, its MCP servers, and the resolved workspace. */
module TaskApi {
  import opened Results

  const CredentialTypeAPIKey: string := "api-key"
  const CredentialTypeOAuth: string := "oauth"

  /** A reference to a Secret by name. */
  datatype SecretReference = SecretReference(name: string)

  /** How the agent authenticates: a credential kind (validated upstream to be
      "api-key" or "oauth", but an arbitrary string here) and its Secret. */
  datatype Credentials = Credentials(credType: string, secretRef: SecretReference)

  /** One MCP server: a transport ("stdio", "http" or "sse") and the fields
      each transport uses. Empty strings, sequences and maps stand for
      omitted optional fields. */
  datatype MCPServer = MCPServer(
    serverType: string,
    command: string,
    args: seq<string>,
    url: string,
    env: map<string, string>,
    headers: map<string, string>)

  /** A reference to a Workspace resource by name. */
  datatype WorkspaceReference = WorkspaceReference(name: string)

  /** The desired state of a Task. */
  datatype TaskSpec = TaskSpec(
    agentType: string,
    prompt: string,
    credentials: Credentials,
    model: string,
    workspaceRef: Option<WorkspaceReference>,
    mcpServers: map<string, MCPServer>,
    ttlSecondsAfterFinished: Option<int>)

  /** A Task: its object name, namespace and spec. */
  datatype Task = Task(name: string, namespace: string, spec: TaskSpec)

  /** A resolved workspace: repository URL, optional ref ("" when unset) and
      optional Secret holding a GitHub token. */
  datatype WorkspaceSpec = WorkspaceSpec(repo: string, ref: string, secretRef: Option<SecretReference>)
}

=== FILE: text.dfy ===
/** String helpers with the meaning Go's `strings` package gives them:
    joining, trimming, ASCII upper-casing, last-occurrence search and the
    UTF-8 byte length that Go's `len` reports for a string. */
module Text {

  /** Go's `strings.Join`: the parts with `sep` between neighbours. */
  function Join(parts: seq<string>, sep: string): (r: string)
    ensures |parts| == 0 ==> r == ""
    ensures |parts| == 1 ==> r == parts[0]
    ensures |parts| > 0 ==> |r| >= |parts[0]| && r[..|parts[0]|] == parts[0]
  {
    if |parts| == 0 then ""
    else if |parts| == 1 then parts[0]
    else parts[0] + sep + Join(parts[1..], sep)
  }

  /** Joining parts that are all non-empty gives "" exactly when there are none. */
  lemma JoinEmptyIff(parts: seq<string>, sep: string)
    requires forall i :: 0 <= i < |parts| ==> parts[i] != ""
    ensures Join(parts, sep) == "" <==> |parts| == 0
  {
    if |parts| > 0 {
      assert |Join(parts, sep)| >= |parts[0]| > 0;
    }
  }

  /** Joining two non-empty lists is joining each and putting `sep` between. */
  lemma {:induction false} JoinAppend(x: seq<string>, y: seq<string>, sep: string)
    requires |x| > 0 && |y| > 0
    ensures Join(x + y, sep) == Join(x, sep) + sep + Join(y, sep)
  {
    if |x| == 1 {
      assert (x + y)[1..] == y;
    } else {
      assert (x + y)[1..] == x[1..] + y;
      JoinAppend(x[1..], y, sep);
    }
  }

  /** Go's `unicode.IsSpace`, the predicate `strings.TrimSpace` trims by. */
  predicate IsSpace(c: char)
  {
    || c == ' ' || c == '\t' || c == '\n' || c == '\r'
    || c == '\U{0B}' || c == '\U{0C}' || c == '\U{85}' || c == '\U{A0}'
    || c == '\U{1680}' || ('\U{2000}' <= c <= '\U{200A}')
    || c == '\U{2028}' || c == '\U{2029}' || c == '\U{202F}' || c == '\U{205F}'
    || c == '\U{3000}'
  }

  /** Number of white-space characters at the front of `s`. */
  function LeadingSpaces(s: string): (n: nat)
    ensures n <= |s|
    ensures forall i :: 0 <= i < n ==> IsSpace(s[i])
    ensures n < |s| ==> !IsSpace(s[n])
  {
    if |s| > 0 && IsSpace(s[0]) then 1 + LeadingSpaces(s[1..]) else 0
  }

  /** Number of white-space characters at the back of `s`. */
  function TrailingSpaces(s: string): (n: nat)
    ensures n <= |s|
    ensures forall i :: |s| - n <= i < |s| ==> IsSpace(s[i])
    ensures n < |s| ==> !IsSpace(s[|s| - n - 1])
  {
    if |s| > 0 && IsSpace(s[|s| - 1]) then 1 + TrailingSpaces(s[..|s| - 1]) else 0
  }

  /** Go's `strings.TrimSpace`: the slice of `s` left after dropping white
      space at both ends. */
  function TrimSpace(s: string): (r: string)
    ensures |r| <= |s|
    ensures LeadingSpaces(s) + |r| <= |s| && r == s[LeadingSpaces(s)..LeadingSpaces(s) + |r|]
    ensures forall k :: LeadingSpaces(s) + |r| <= k < |s| ==> IsSpace(s[k])
    ensures |r| > 0 ==> !IsSpace(r[0]) && !IsSpace(r[|r| - 1])
  {
    var lead := LeadingSpaces(s);
    var rest := s[lead..];
    var trail := TrailingSpaces(rest);
    assert forall k :: lead + |rest| - trail <= k < |s| ==> s[k] == rest[k - lead];
    rest[..|rest| - trail]
  }

  /** A string with no white space at either end is its own trim. */
  lemma TrimSpaceNoop(s: string)
    requires |s| > 0 ==> !IsSpace(s[0]) && !IsSpace(s[|s| - 1])
    ensures TrimSpace(s) == s
  {
    var r := TrimSpace(s);
    if |s| > 0 {
      assert LeadingSpaces(s) == 0;
    }
  }

  /** Go's `strings.TrimRight(s, [c])`: drop every trailing `c`. */
  function TrimRightChar(s: string, c: char): (r: string)
    ensures |r| <= |s| && r == s[..|r|]
    ensures forall i :: |r| <= i < |s| ==> s[i] == c
    ensures |r| > 0 ==> r[|r| - 1] != c
  {
    if |s| > 0 && s[|s| - 1] == c then TrimRightChar(s[..|s| - 1], c) else s
  }

  /** Upper-case an ASCII letter; every other character is unchanged. */
  function UpperAscii(c: char): char
  {
    if 'a' <= c <= 'z' then (c as int - 'a' as int + 'A' as int) as char else c
  }

  /** `strings.ToUpper` restricted to ASCII letters (length preserving). */
  function ToUpperAscii(s: string): (r: string)
    ensures |r| == |s|
    ensures forall i :: 0 <= i < |s| ==> r[i] == UpperAscii(s[i])
  {
    seq(|s|, i requires 0 <= i < |s| => UpperAscii(s[i]))
  }

  /** `pat` occurs in `s` starting at index `i`. */
  predicate OccursAt(s: string, pat: string, i: int)
  {
    0 <= i && i + |pat| <= |s| && s[i..i + |pat|] == pat
  }

  /** Go's `strings.LastIndex`: the start of the last occurrence of `pat`
      in `s`, or -1 when there is none. */
  function LastIndex(s: string, pat: string): (r: int)
    ensures -1 <= r
    ensures r >= 0 ==> OccursAt(s, pat, r)
    ensures forall i :: r < i <= |s| - |pat| ==> !OccursAt(s, pat, i)
    decreases |s|
  {
    if |s| < |pat| then -1
    else if s[|s| - |pat|..] == pat then |s| - |pat|
    else
      var shorter := s[..|s| - 1];
      assert forall i :: 0 <= i <= |shorter| - |pat| ==> (OccursAt(shorter, pat, i) <==> OccursAt(s, pat, i)) by {
        forall i | 0 <= i <= |shorter| - |pat|
          ensures OccursAt(shorter, pat, i) <==> OccursAt(s, pat, i)
        {
          assert shorter[i..i + |pat|] == s[i..i + |pat|];
        }
      }
      assert !OccursAt(s, pat, |s| - |pat|);
      LastIndex(shorter, pat)
  }

  /** Number of bytes in the UTF-8 encoding of one character. */
  function RuneLen(c: char): nat
  {
    if c as int < 0x80 then 1
    else if c as int < 0x800 then 2
    else if c as int < 0x1_0000 then 3
    else 4
  }

  /** Go's `len` on a string: the length of its UTF-8 encoding in bytes. */
  function Utf8Len(s: string): (n: nat)
    ensures n >= |s|
    ensures n <= 4 * |s|
  {
    if |s| == 0 then 0 else RuneLen(s[0]) + Utf8Len(s[1..])
  }
}
